=== FILE: README.md ===
# rcli core, modelled in Dafny

`rcli` is a small command-line toolbox written in Rust. This project models its core and proves properties about that model. It covers five parts:

- **JWT-style tokens** (`jwt sign` / `jwt verify`). A token is `H.P.S`.
  - `H` and `P` are the header's and the payload's JSON text, in the standard base64 alphabet without padding.
  - `S` is the same encoding of `SHA-256(H.P ++ secret)` or `SHA-512(H.P ++ secret)`. This is a plain digest of the concatenation, not HMAC.
  - Validation has four stages: it splits the token on `.`, decodes the three segments in a fixed order, checks the `iat`, `exp` and `nbf` claims against the clock, and then compares digests.
- **Text signatures** (`text sign` / `text verify`).
  - BLAKE3 keyed hashing uses a 32-byte shared key.
  - Ed25519 (RFC 8032) uses a 32-byte seed or public key.
  - Both read the whole input before signing or verifying.
  - The signature is printed in URL-safe unpadded base64 (section 5 of RFC 4648).
- **Option parsers** for:
  - the digest algorithm, the `time_in_range` validator and the header and payload records;
  - the text signature format and the key-file layout;
  - the CSV output format and its default file name.
- **Password generation** (`genpass`).
  - The password gets one character from each selected class.
  - It is then filled from the union of the selected classes and shuffled in place.
- **Base64 without padding**, as the `base64` crate's `STANDARD_NO_PAD` and `URL_SAFE_NO_PAD` engines do it.
  - Decoding is strict: it refuses padding, characters outside the alphabet, and non-zero trailing bits.
  - Encoding and decoding are proved inverse in both directions.

The crypto primitives and the JSON serialiser are parameters, not definitions:

- `GenJwt.Hashes` holds SHA-256 and SHA-512.
- `GenJwt.JsonCodec` holds serde_json.
- `TextSign.SignaturePrimitives` holds BLAKE3 and Ed25519.

Each of these is a record of functions with a predicate that states the only facts used about them:

- the digest and signature sizes;
- that JSON decoding inverts encoding;
- that a seed's public key accepts the seed's signatures.

The random number generator is an index oracle `rng(step, bound)`. The clock is a `now` parameter.

Modules and files:

| file | module | source |
|---|---|---|
| `base.dfy` | `Base` | integer widths, `Option`, `Result` |
| `strings.dfy` | `Strings` | `str::split`, `as_bytes`, ASCII `to_lowercase`, `u64::from_str` |
| `base64.dfy` | `Base64` | the two no-pad base64 engines |
| `cli_jwt.dfy` | `CliJwt` | `src/cli/jwt.rs` |
| `gen_jwt.dfy` | `GenJwt` | `src/process/gen_jwt.rs` |
| `cli_text.dfy` | `CliText` | `src/cli/text.rs` |
| `text_sign.dfy` | `TextSign` | `src/process/text.rs` |
| `csv_opts.dfy` | `CsvOpts` | `src/cli/csv_opts.rs` |
| `gen_pass.dfy` | `GenPass` | `01_rcli/src/process/gen_pass.rs` |

Mutable state is modelled where the source changes it:

- `GenJwt.DigestContext` is the `ring::digest::Context` that is updated twice and then finished.
- `TextSign.Reader` is the input drained by `read_to_end`.
- `GenPass.Shuffle` permutes an `array` in place.
- `GenPass.Seed` and `GenPass.Fill` grow the password's buffer.

Both directions of each parser are modelled, and the pairs are tied together:

- every name-printing function is inverted by its parser;
- `time_in_range` is inverted by decimal printing.

## Model

| member | source | states |
|---|---|---|
| `Strings.Split` | src/process/gen_jwt.rs:53 | `split('.')` yields at least one piece and no piece contains the separator |
| `Strings.JoinSplit` | src/process/gen_jwt.rs:53 | splitting loses nothing: joining the pieces with the separator rebuilds the string |
| `Strings.SplitJoin` | src/process/gen_jwt.rs:53 | pieces without the separator, joined then split, come back unchanged |
| `Strings.SplitThree` | src/process/gen_jwt.rs:37 | `a.b.c` with dot-free parts splits into exactly `[a, b, c]` |
| `Strings.JoinThree` | src/process/gen_jwt.rs:58-60 | a string that splits into three pieces is those pieces joined by `.` |
| `Strings.SplitCount` | src/process/gen_jwt.rs:53-54 | the number of pieces is one more than the number of separators |
| `Strings.AsciiLower` | src/cli/csv_opts.rs:47 | the result has the same length and no capital letters; each capital moves to its small letter (code + 32), every other character is kept, and a string without capitals is unchanged |
| `Strings.ParseU64` | src/cli/jwt.rs:110-112 | `parse::<u64>()` accepts an optional `+` followed by at least one digit and nothing else, whose value it returns; every digit string with value at most `u64::MAX` parses to that value; anything with `-`, the empty string and a lone `+` are refused |
| `Strings.ParseU64Decimal` | src/cli/jwt.rs:110-112 | every u64, printed in decimal, parses back to itself |
| `Strings.Utf8Char` | src/process/gen_jwt.rs:32-33 | a character's UTF-8 encoding has one to four bytes, the lead byte giving the count and the rest continuation bytes; ASCII is its own code |
| `Strings.Utf8CharRoundTrip` | src/process/gen_jwt.rs:32-33 | decoding a character's encoding gives its scalar value back |
| `Strings.Utf8` | src/process/gen_jwt.rs:94-95 | `as_bytes` has at least one byte per character, and ASCII text is exactly its codes |
| `Strings.Utf8Injective` | src/process/gen_jwt.rs:94-95 | distinct strings never have the same bytes |
| `Base64.Value` | src/process/gen_jwt.rs:63 | a character that decodes to a 6-bit value is the symbol of that value |
| `Base64.Encode` | src/process/gen_jwt.rs:25-26 | an encoding has `ceil(4n/3)` characters, all from the alphabet |
| `Base64.Decode` | src/process/gen_jwt.rs:63-69 | a successful decoding used only alphabet characters and yields `floor(3m/4)` bytes |
| `Base64.DecodeEncode` | src/process/gen_jwt.rs:63 | decoding an encoding gives the bytes back |
| `Base64.EncodeDecode` | src/process/text.rs:67 | every accepted string is the encoding of what it decodes to (canonical trailing bits) |
| `Base64.DecodeInjective` | src/process/gen_jwt.rs:63 | two accepted strings with the same bytes are the same string |
| `Base64.EncodeHasNoDot` | src/process/gen_jwt.rs:37 | no encoding contains the `.` separator |
| `Base64.RfcVectors` | src/process/gen_jwt.rs:25-26 | the unpadded test vectors of section 10 of RFC 4648: `f`, `fo`, `foo`, `foob` encode to `Zg`, `Zm8`, `Zm9v`, `Zm9vYg` |
| `Base64.ManVector` | src/process/gen_jwt.rs:63 | `Man` encodes to `TWFu` and `TWFu` decodes to `Man` |
| `Base64.AlphabetsDiffer` | src/process/text.rs:54 | the same bytes encode to `+/8` in the standard alphabet and `-_8` in the URL-safe one, and neither engine accepts the other's symbols |
| `CliJwt.ParseAlgorithm` | src/cli/jwt.rs:60-70 | accepts exactly `SHA256` and `SHA512`, case-sensitive; else "invalid algorithm" |
| `CliJwt.AlgorithmName` | src/cli/jwt.rs:72-79 | each algorithm prints as `SHA` followed by its digest width, `256` or `512` |
| `CliJwt.ParseAlgorithmName` | src/cli/jwt.rs:72-85 | parsing the printed name of an algorithm gives it back |
| `CliJwt.TimeInRange` | src/cli/jwt.rs:109-118 | succeeds exactly when the text parses as a u64 with a positive value, returning that value; "time must be a number" when it does not parse, "time must be greater than 0" for zero |
| `CliJwt.TimeInRangeAcceptsPositive` | src/cli/jwt.rs:113-114 | every positive u64, printed in decimal, is returned unchanged |
| `CliJwt.TimeInRangeRejectsZero` | src/cli/jwt.rs:115-116 | any numeral with value zero is refused with "time must be greater than 0" |
| `CliJwt.HeaderFromArgs` | src/cli/jwt.rs:44-47 | `alg` defaults to SHA256 and `typ` to "JWT"; a given `alg` is parsed and ends up in the header, a given `typ` is kept verbatim; the only failure is "invalid algorithm" |
| `CliJwt.PayloadFromArgs` | src/cli/jwt.rs:87-107 | a payload is built iff all three time claims pass `time_in_range`, and its `exp`, `nbf`, `iat` are exactly the values `time_in_range` returns, hence positive; `sub`, `iss` and the optional `jti` are kept |
| `GenJwt.DigestContext.constructor` | src/process/gen_jwt.rs:31 | a new context for the chosen algorithm has been fed nothing |
| `GenJwt.DigestContext.Update` | src/process/gen_jwt.rs:32-33 | `update` appends its bytes to what the context has been fed |
| `GenJwt.DigestContext.Finish` | src/process/gen_jwt.rs:34 | `finish` is the algorithm's digest of everything fed |
| `GenJwt.DigestOfParts` | src/process/gen_jwt.rs:31-34 | `update(a); update(b); finish()` equals `Hash(a ++ b)` |
| `GenJwt.Issue` | src/process/gen_jwt.rs:16-50 | an issued token contains exactly two `.` separators, since no base64 segment contains one |
| `GenJwt.GenerateToken` | src/process/gen_jwt.rs:16-50 | the token built with two updates of a digest context is the `Issue` specification's `H.P.S` |
| `GenJwt.IssuedTokenSplits` | src/process/gen_jwt.rs:25-46 | an issued token splits into header segment, payload segment and encoded `Hash_alg(H.P ++ secret)` |
| `GenJwt.IssuedSignatureLength` | src/process/gen_jwt.rs:36-37 | the signature segment has 43 characters under SHA256, 86 under SHA512 |
| `GenJwt.CheckClaims` | src/process/gen_jwt.rs:75-87 | claims pass iff `now` is within `[iat, exp]` and not before `nbf`, each zero claim imposing nothing; each error is reported exactly when its check fails and every earlier one (in iat, exp, nbf order) passed |
| `GenJwt.ZeroClaimsAlwaysHold` | src/process/gen_jwt.rs:75-87 | zero in all three claims disables every time check |
| `GenJwt.ValidateToken` | src/process/gen_jwt.rs:52-119 | the early-return validation equals `Validate`: split, decode signature, header, header JSON, payload, payload JSON, claims, then digest comparison |
| `GenJwt.Validate` | src/process/gen_jwt.rs:52-119 | "invalid token" exactly when the token does not hold two dots; otherwise the first failure in the order signature base64, header base64, header JSON, payload base64, payload JSON, claims is reported, each exactly when the steps before it passed and its own fails; the result is `Ok` exactly when the token splits in three, all three segments decode and the claims hold at `now`, and then the answer is whether the header's digest of `H.P ++ secret` equals the signature bytes, so a mismatch of any length is `Ok(false)` |
| `GenJwt.ValidateDecodesSignatureFirst` | src/process/gen_jwt.rs:58-65 | a three-segment token whose third segment is not base64 is refused for that, whatever its header and payload |
| `GenJwt.ValidateErrorsIgnoreSecret` | src/process/gen_jwt.rs:53-87 | every error is decided before the secret is used |
| `GenJwt.ValidateIssued` | src/process/gen_jwt.rs:89-118 | on an issued token, validation gives the claim error, or whether the digests under the two secrets agree |
| `GenJwt.IssueThenValidate` | src/process/gen_jwt.rs:16-119 | an issued token validates with `Ok(true)` under its secret while its claims hold |
| `GenJwt.ExpiredTokenRefused` | src/process/gen_jwt.rs:75-82 | an issued token whose `iat` has passed and whose `exp` is past is refused with "invalid exp" under any secret |
| `GenJwt.ValidTokenIsSigned` | src/process/gen_jwt.rs:89-118 | soundness: `Ok(true)` means the third segment is exactly the encoding of `Hash_alg(H.P ++ secret)` |
| `GenJwt.TamperedSignatureRefused` | src/process/gen_jwt.rs:102 | replacing the signature segment of a valid token by any other makes it invalid |
| `CliText.ParseTextSignFormat` | src/cli/text.rs:64-74 | accepts exactly `blake3` and `ed25519`, case-sensitive; else `Invalid format: <s>` |
| `CliText.FormatName` | src/cli/text.rs:76-83 | each format prints as a lower-case name, `blake3` or `ed25519` |
| `CliText.ParseFormatName` | src/cli/text.rs:76-89 | parsing the printed name of a format gives it back |
| `CliText.DefaultFormatIsBlake3` | src/cli/text.rs:30 | the `--format` default parses to BLAKE3 |
| `CliText.KeyFiles` | src/cli/text.rs:107-120 | Ed25519 writes `key[0]` to `<out>/ed25519.sk` and `key[1]` to `<out>/ed25519.pk`; BLAKE3 writes `key[0]` to `<out>/blake3.txt`; all inside `<out>`, no two at the same path |
| `TextSign.Blake3TryNew` | src/process/text.rs:138-143 | the key is a 32-byte prefix of the key file |
| `TextSign.Blake3KeyIgnoresExtra` | src/process/text.rs:138-143 | bytes after the 32nd do not change the key |
| `TextSign.SignerTryNew` | src/process/text.rs:158-162 | succeeds iff the key has exactly 32 bytes, keeping them unchanged; else a key-length error |
| `TextSign.VerifierTryNew` | src/process/text.rs:177-181 | succeeds iff the key has 32 bytes forming a valid public key; a key-length error exactly when the length is wrong |
| `TextSign.Blake3SignThenVerify` | src/process/text.rs:190-199 | a BLAKE3 signature has 32 bytes and verifies with the key that made it |
| `TextSign.Blake3Verify` | src/process/text.rs:102-113 | a BLAKE3 signature verifies exactly when it is what signing the same input with the same key gives, so only a 32-byte one can |
| `TextSign.Ed25519Verify` | src/process/text.rs:115-124 | a verifier holding a seed's public key accepts what that seed signs, whatever bytes follow the first 64 |
| `TextSign.Ed25519SignThenVerify` | src/process/text.rs:93-124 | an Ed25519 signature has 64 bytes and verifies under the seed's public key |
| `TextSign.Ed25519IgnoresTrailingBytes` | src/process/text.rs:119 | bytes after the 64th do not change an Ed25519 verdict |
| `TextSign.Reader.constructor` | src/process/text.rs:42 | a reader starts with all its bytes unread |
| `TextSign.Reader.ReadToEnd` | src/process/text.rs:87-88 | `read_to_end` appends everything unread to the buffer and leaves nothing unread |
| `TextSign.SignBlake3` | src/process/text.rs:84-91 | the signature is the keyed hash of the whole input, which is consumed |
| `TextSign.SignEd25519` | src/process/text.rs:93-100 | the signature is the seed's signature of the whole input, which is consumed |
| `TextSign.VerifyBlake3` | src/process/text.rs:102-113 | true iff the signature equals the keyed hash of the whole input |
| `TextSign.VerifyEd25519` | src/process/text.rs:115-124 | the whole input is consumed first; then a signature under 64 bytes panics, and otherwise the answer is whether the public key accepts the first 64 signature bytes for the input |
| `TextSign.TextSignResult` | src/process/text.rs:41-58 | signing succeeds exactly for a BLAKE3 key file of at least 32 bytes or an Ed25519 one of exactly 32; a short BLAKE3 key panics, a wrong-length seed is a key-length error; the printed text decodes to the keyed hash (BLAKE3) or the seed's signature (Ed25519) of the input, and has 43 or 86 characters |
| `TextSign.TextVerifyResult` | src/process/text.rs:60-82 | bad signature text is reported exactly when it does not decode; a key-length error exactly for a decodable signature and a non-32-byte Ed25519 key; an invalid-public-key error exactly for a decodable signature and a 32-byte Ed25519 key that is not a public key; a panic exactly for a short BLAKE3 key or a signature under 64 bytes with a good Ed25519 key; the result is `Ok` in every other case, so a non-matching signature is `Ok(false)`: a BLAKE3 answer is whether the decoded signature equals the keyed hash of the input, an Ed25519 answer is the public key's verdict on its first 64 bytes |
| `TextSign.ProcessTextSign` | src/process/text.rs:41-58 | returns what `TextSignResult` gives for the input read; a success consumes the whole input and a failure reads none of it |
| `TextSign.ProcessTextVerify` | src/process/text.rs:60-82 | returns what `TextVerifyResult` gives for the input read; a success, and the short-signature panic of the Ed25519 verifier, consume the whole input; every other failure comes before the read and leaves it unread |
| `TextSign.VerifyDecodesSignatureFirst` | src/process/text.rs:66-67 | malformed signature text is refused before the key is looked at, whatever the format or key |
| `TextSign.TextSignOutput` | src/process/text.rs:54 | the printed signature has 43 (BLAKE3) or 86 (Ed25519) characters and decodes to 32 or 64 bytes |
| `TextSign.Blake3CommandsRoundTrip` | src/process/text.rs:41-82 | what `text sign` prints for a BLAKE3 key, `text verify` accepts with the same key and input |
| `TextSign.Ed25519CommandsRoundTrip` | src/process/text.rs:41-82 | what `text sign` prints for a seed, `text verify` accepts with its public key and the same input |
| `CsvOpts.ParseOutputFormat` | src/cli/csv_opts.rs:44-54 | accepts exactly the strings whose lower-case form is json, yaml or toml; else "Invalid format" |
| `CsvOpts.OutputFormatName` | src/cli/csv_opts.rs:34-42 | each format prints as a four-letter lower-case name without `.` |
| `CsvOpts.ParseOutputFormatName` | src/cli/csv_opts.rs:34-42 | parsing the printed name of a format gives it back |
| `CsvOpts.AsciiLowerIdempotent` | src/cli/csv_opts.rs:47 | lower-casing a lower-cased string changes nothing |
| `CsvOpts.ParseIgnoresCase` | src/cli/csv_opts.rs:47 | a string parses exactly as its lower-case form does |
| `CsvOpts.UpperCaseNamesAccepted` | src/cli/csv_opts.rs:47-50 | `JSON`, `Yaml` and `TOML` are accepted |
| `CsvOpts.DefaultOutputFormatIsJson` | src/cli/csv_opts.rs:22 | the `--format` default parses to JSON |
| `CsvOpts.OutputPath` | src/cli/csv_opts.rs:56-63 | a given output path is used verbatim; otherwise it splits on `.` into `output` and the format's name |
| `CsvOpts.DefaultOutputPathNamesFormat` | src/cli/csv_opts.rs:58-62 | the default file name's extension parses back to the chosen format |
| `GenPass.AmbiguousGlyphsOmitted` | 01_rcli/src/process/gen_pass.rs:5-8 | no `O` among capitals, no `i` or `l` among small letters, no `0` among digits |
| `GenPass.ClassesAreAscii` | 01_rcli/src/process/gen_pass.rs:5-8 | every class is ASCII |
| `GenPass.PoolIsAscii` | 01_rcli/src/process/gen_pass.rs:57 | every pool is ASCII, so `String::from_utf8` cannot fail on the password |
| `GenPass.Classes` | 01_rcli/src/process/gen_pass.rs:22-42 | at most four classes are selected, none of them empty |
| `GenPass.Pool` | 01_rcli/src/process/gen_pass.rs:22-42 | a character is in the pool exactly when it belongs to a selected class, and its length is the sum of the selected classes' sizes |
| `GenPass.PoolEmptyIffNoClass` | 01_rcli/src/process/gen_pass.rs:46-48 | the pool is empty exactly when no class is selected |
| `GenPass.Pick` | 01_rcli/src/process/gen_pass.rs:25 | `choose` on a non-empty slice returns one of its elements |
| `GenPass.Shuffle` | 01_rcli/src/process/gen_pass.rs:53 | the in-place shuffle keeps the multiset of characters |
| `GenPass.RepresentsPermutation` | 01_rcli/src/process/gen_pass.rs:53 | a class present before a permutation is present after it |
| `GenPass.RepresentsPrefix` | 01_rcli/src/process/gen_pass.rs:45-51 | a class present in the seeded prefix is present after more characters are pushed |
| `GenPass.SeedClass` | 01_rcli/src/process/gen_pass.rs:22-26 | a selected class extends the pool and pushes one of its own characters; an unselected one changes nothing |
| `GenPass.Seed` | 01_rcli/src/process/gen_pass.rs:22-42 | the pool is the union of the selected classes; one seeded character per selected class, each from its class |
| `GenPass.Fill` | 01_rcli/src/process/gen_pass.rs:45-51 | the fill loop appends exactly the missing count of pool characters and keeps the seeded prefix |
| `GenPass.GenPassword` | 01_rcli/src/process/gen_pass.rs:11-59 | the password has exactly `length` ASCII characters, all from the selected classes, with at least one from every selected class |

## Left out

- I/O. This covers:
  - `get_reader`, `fs::read` and `fs::write`: the key file and the input are byte-sequence parameters, and the files `text generate` writes are returned as a list;
  - every `println!`;
  - the `verify_file` / `verify_path` existence checks.
- The clock. `SystemTime::now` is the `now` parameter of `GenJwt.Validate`. The error of `duration_since` for a clock set before 1970 is not modelled.
- SHA-256, SHA-512, BLAKE3, Ed25519 and serde_json are not defined; only the properties named above are assumed about them.
  - Collision resistance is not assumed. `GenJwt.ValidateIssued` therefore states validity under another secret as digest equality, not as `false`.
- `GenJwt.Validate`: the source reports the base64 and JSON failures with the libraries' own error values; the model tags each with the step that failed (`SignatureBase64`, `HeaderJson`, …).
- The JSON text of the header and payload, and serde's handling of the `jti` `null`, are part of the abstract serialiser.
- The JWT design conventionally uses the URL-safe base64 alphabet (RFC 7519). The code uses `STANDARD_NO_PAD`, and the model follows the code.
- `TextSign.Blake3TryNew` requires at least 32 key bytes because `&key[..32]` panics on a shorter key. In `TextSign.ProcessTextSign` and `TextSign.ProcessTextVerify` that panic is the result `Err(Panic)`.
- `TextSign.VerifyEd25519`: the `&sig[..64]` panic on a signature shorter than 64 bytes, where `false` might have been expected, is the result `Err(Panic)`, returned after the input has been read, as in the source.
- `GenPass.GenPassword` requires no more selected classes than `length`, because `length - password.len() as u8` underflows. It also requires some class when `length > 0`, because the `expect` on an empty pool panics.
- `GenPass.Shuffle`: only the permutation property is stated. Which permutation the oracle leads to, and the uniformity of the real generator, are not modelled.
- Key generation (`process_generate`) is not part of this model. `CliText.KeyFiles` takes the generated keys as a parameter.
- The `Display` of `OutPutFormat` used in `format!("output.{}")` is taken to write the same text as `Into<&str>`. That is what the copy at 01_rcli/src/process/csv_convert.rs:54-58 does.
- `to_lowercase` is modelled on ASCII letters only; Unicode case folding of other characters is not modelled.
- The HTTP server, CSV conversion, the base64 sub-command and the clap machinery (argument order, help text) are not part of this model.

=== FILE: base.dfy ===
/**
 * Shared vocabulary of the model: fixed-width integers as subset types and
 * the Option/Result wrappers that stand for Rust's `Option` and
 * `anyhow::Result`.
 */
module Base {

  /** Rust `u8`. */
  type byte = b: int | 0 <= b < 0x100

  /** Rust `u64`. */
  type u64 = x: int | 0 <= x < 0x1_0000_0000_0000_0000

  const U64_MAX: int := 0xFFFF_FFFF_FFFF_FFFF

  datatype Option<+T> = None | Some(value: T)

  datatype Result<+T, +E> = Ok(value: T) | Err(error: E)
}

=== FILE: base64.dfy ===
/**
 * Base64 without padding, as the `base64` crate's `STANDARD_NO_PAD` and
 * `URL_SAFE_NO_PAD` engines do it: the alphabets of sections 4 and 5 of
 * RFC 4648, no `=` padding on output, and strict decoding that refuses
 * padding, characters outside the alphabet, a length of 1 modulo 4 and
 * non-zero pad bits in the last character (section 3.5 of RFC 4648).
 * Because of that strictness the codec is a bijection between byte strings
 * and the strings it accepts, proved in both directions below.
 */
module Base64 {
  import opened Base

  /** Section 4 (`+`, `/`) or section 5 (`-`, `_`) of RFC 4648. */
  datatype Alphabet = Standard | UrlSafe

  /** A 6-bit group. */
  type sextet = v: int | 0 <= v < 64

  // ---------------------------------------------------------------------------
  // One character
  // ---------------------------------------------------------------------------

  /** The character that encodes `v` (Tables 1 and 2 of RFC 4648). */
  function Symbol(a: Alphabet, v: sextet): char
  {
    if v < 26 then ('A' as int + v) as char
    else if v < 52 then ('a' as int + v - 26) as char
    else if v < 62 then ('0' as int + v - 52) as char
    else if v == 62 then (if a == Standard then '+' else '-')
    else (if a == Standard then '/' else '_')
  }

  /** The 6-bit group a character stands for, if it is in the alphabet. */
  function Value(a: Alphabet, c: char): (r: Option<sextet>)
    ensures r.Some? ==> Symbol(a, r.value) == c
  {
    if 'A' <= c <= 'Z' then Some(c as int - 'A' as int)
    else if 'a' <= c <= 'z' then Some(c as int - 'a' as int + 26)
    else if '0' <= c <= '9' then Some(c as int - '0' as int + 52)
    else if c == (if a == Standard then '+' else '-') then Some(62)
    else if c == (if a == Standard then '/' else '_') then Some(63)
    else None
  }

  predicate InAlphabet(a: Alphabet, c: char)
  {
    Value(a, c).Some?
  }

  /** Distinct groups have distinct characters, and every character decodes. */
  lemma ValueSymbol(a: Alphabet, v: sextet)
    ensures Value(a, Symbol(a, v)) == Some(v)
  {
  }

  /** Neither alphabet contains the token separator `.` (code 46). */
  lemma DotNotInAlphabet(a: Alphabet)
    ensures !InAlphabet(a, '.')
  {
  }

  // ---------------------------------------------------------------------------
  // Bytes <-> 6-bit groups: 3 bytes make 4 groups; a final 1 or 2 bytes make
  // 2 or 3 groups whose unused low bits are zero.
  // ---------------------------------------------------------------------------

  function ToSextets(b: seq<byte>): (v: seq<sextet>)
    ensures |v| == (4 * |b| + 2) / 3
    decreases |b|
  {
    if |b| >= 3 then
      [b[0] / 4, (b[0] % 4) * 16 + b[1] / 16, (b[1] % 16) * 4 + b[2] / 64, b[2] % 64]
        + ToSextets(b[3..])
    else if |b| == 2 then [b[0] / 4, (b[0] % 4) * 16 + b[1] / 16, (b[1] % 16) * 4]
    else if |b| == 1 then [b[0] / 4, (b[0] % 4) * 16]
    else []
  }

  /** First byte of a group: all of `x` and the top 2 bits of `y`. */
  function High(x: sextet, y: sextet): byte
  {
    x as int * 4 + y as int / 16
  }

  /** Second byte of a group: low 4 bits of `y`, top 4 bits of `z`. */
  function Middle(y: sextet, z: sextet): byte
  {
    (y as int % 16) * 16 + z as int / 4
  }

  /** Third byte of a group: low 2 bits of `z` and all of `w`. */
  function Low(z: sextet, w: sextet): byte
  {
    (z as int % 4) * 64 + w as int
  }

  lemma GroupRoundTrip(b0: byte, b1: byte, b2: byte)
    ensures High(b0 / 4, (b0 % 4) * 16 + b1 / 16) == b0
    ensures Middle((b0 % 4) * 16 + b1 / 16, (b1 % 16) * 4 + b2 / 64) == b1
    ensures Low((b1 % 16) * 4 + b2 / 64, b2 % 64) == b2
  {
  }

  function FromSextets(v: seq<sextet>): (r: Option<seq<byte>>)
    ensures r.Some? ==> |r.value| == 3 * |v| / 4
    decreases |v|
  {
    if |v| >= 4 then
      match FromSextets(v[4..])
      case None => None
      case Some(rest) => Some([High(v[0], v[1]), Middle(v[1], v[2]), Low(v[2], v[3])] + rest)
    else if |v| == 3 then
      if v[2] % 4 != 0 then None else Some([High(v[0], v[1]), Middle(v[1], v[2])])
    else if |v| == 2 then
      if v[1] % 16 != 0 then None else Some([High(v[0], v[1])])
    else if |v| == 1 then None
    else Some([])
  }

  lemma SextetsRoundTrip(x: sextet, y: sextet, z: sextet, w: sextet)
    ensures High(x, y) / 4 == x
    ensures (High(x, y) % 4) * 16 + Middle(y, z) / 16 == y
    ensures (Middle(y, z) % 16) * 4 + Low(z, w) / 64 == z
    ensures Low(z, w) % 64 == w
    ensures z % 4 == 0 ==> (Middle(y, z) % 16) * 4 == z
    ensures y % 16 == 0 ==> (High(x, y) % 4) * 16 == y
  {
  }

  lemma {:induction false} FromToSextets(b: seq<byte>)
    ensures FromSextets(ToSextets(b)) == Some(b)
    decreases |b|
  {
    if |b| >= 3 {
      var g: seq<sextet> := [b[0] / 4, (b[0] % 4) * 16 + b[1] / 16, (b[1] % 16) * 4 + b[2] / 64, b[2] % 64];
      var rest := ToSextets(b[3..]);
      var v := ToSextets(b);
      assert v == g + rest;
      assert v[4..] == rest;
      FromToSextets(b[3..]);
      GroupRoundTrip(b[0], b[1], b[2]);
      assert [High(v[0], v[1]), Middle(v[1], v[2]), Low(v[2], v[3])] == b[..3];
      assert b == b[..3] + b[3..];
    } else if |b| == 2 {
      assert b == [b[0], b[1]];
      TailRoundTrip2(b[0], b[1]);
    } else if |b| == 1 {
      assert b == [b[0]];
      TailRoundTrip1(b[0]);
    }
  }

  lemma TailRoundTrip2(b0: byte, b1: byte)
    ensures FromSextets(ToSextets([b0, b1])) == Some([b0, b1])
  {
    var v := ToSextets([b0, b1]);
    var x, y, z := b0 / 4, (b0 % 4) * 16 + b1 / 16, (b1 % 16) * 4;
    assert v == [x, y, z];
    GroupRoundTrip(b0, b1, 0);
    assert z % 4 == 0;
    assert High(x, y) == b0 && Middle(y, z) == b1;
  }

  lemma TailRoundTrip1(b0: byte)
    ensures FromSextets(ToSextets([b0])) == Some([b0])
  {
    var x := b0 / 4;
    var r := b0 % 4;
    var y := r * 16;
    assert ToSextets([b0]) == [x, y];
    assert y % 16 == 0 && y / 16 == r;
    assert High(x, y) == b0;
    assert FromSextets([x, y]) == Some([High(x, y)]);
  }

  lemma {:induction false} ToFromSextets(v: seq<sextet>)
    requires FromSextets(v).Some?
    ensures ToSextets(FromSextets(v).value) == v
    decreases |v|
  {
    if |v| >= 4 {
      var tail := FromSextets(v[4..]).value;
      var g := [High(v[0], v[1]), Middle(v[1], v[2]), Low(v[2], v[3])];
      var b := g + tail;
      assert FromSextets(v).value == b;
      assert b[..3] == g && b[3..] == tail;
      ToFromSextets(v[4..]);
      SextetsRoundTrip(v[0], v[1], v[2], v[3]);
      assert ToSextets(b) == v[..4] + v[4..];
      assert v == v[..4] + v[4..];
    } else if |v| == 3 || |v| == 2 {
      SextetsRoundTrip(v[0], v[1], if |v| == 3 then v[2] else 0, 0);
    }
  }

  // ---------------------------------------------------------------------------
  // 6-bit groups <-> characters
  // ---------------------------------------------------------------------------

  function Symbols(a: Alphabet, v: seq<sextet>): (s: string)
    ensures |s| == |v|
  {
    seq(|v|, k requires 0 <= k < |v| => Symbol(a, v[k]))
  }

  function Values(a: Alphabet, s: string): (r: Option<seq<sextet>>)
    ensures r.Some? ==> |r.value| == |s|
  {
    if forall k :: 0 <= k < |s| ==> InAlphabet(a, s[k]) then
      Some(seq(|s|, k requires 0 <= k < |s| && InAlphabet(a, s[k]) => Value(a, s[k]).value))
    else None
  }

  // ---------------------------------------------------------------------------
  // The codec
  // ---------------------------------------------------------------------------

  /** `engine.encode(bytes)`: `ceil(4n / 3)` characters, all from the alphabet. */
  function Encode(a: Alphabet, b: seq<byte>): (s: string)
    ensures |s| == (4 * |b| + 2) / 3
    ensures forall k :: 0 <= k < |s| ==> InAlphabet(a, s[k])
  {
    var s := Symbols(a, ToSextets(b));
    assert forall k :: 0 <= k < |s| ==> Value(a, s[k]) == Some(ToSextets(b)[k]) by {
      forall k | 0 <= k < |s| { ValueSymbol(a, ToSextets(b)[k]); }
    }
    s
  }

  /** `engine.decode(text)`: `None` for every string the crate rejects. */
  function Decode(a: Alphabet, s: string): (r: Option<seq<byte>>)
    ensures r.Some? ==> forall k :: 0 <= k < |s| ==> InAlphabet(a, s[k])
    ensures r.Some? ==> |r.value| == 3 * |s| / 4
  {
    match Values(a, s)
    case None => None
    case Some(v) => FromSextets(v)
  }

  /** Decoding an encoding gives the bytes back. */
  lemma DecodeEncode(a: Alphabet, b: seq<byte>)
    ensures Decode(a, Encode(a, b)) == Some(b)
  {
    var v := ToSextets(b);
    var s := Encode(a, b);
    forall k | 0 <= k < |s| ensures Value(a, s[k]) == Some(v[k]) {
      ValueSymbol(a, v[k]);
    }
    var w := Values(a, s).value;
    assert w == v;
    FromToSextets(b);
  }

  /** Every string that decodes is the encoding of what it decodes to. */
  lemma EncodeDecode(a: Alphabet, s: string)
    requires Decode(a, s).Some?
    ensures Encode(a, Decode(a, s).value) == s
  {
    var v := Values(a, s).value;
    ToFromSextets(v);
  }

  /** Hence decoding is injective: two strings with the same bytes are equal. */
  lemma DecodeInjective(a: Alphabet, s: string, t: string)
    requires Decode(a, s).Some? && Decode(a, s) == Decode(a, t)
    ensures s == t
  {
    EncodeDecode(a, s);
    EncodeDecode(a, t);
  }

  /** No encoding contains `.`. */
  lemma EncodeHasNoDot(a: Alphabet, b: seq<byte>)
    ensures '.' !in Encode(a, b)
  {
    DotNotInAlphabet(a);
  }

  /** The unpadded test vectors of section 10 of RFC 4648, "f" to "foob". */
  lemma RfcVectors()
    ensures Encode(Standard, [0x66]) == "Zg"
    ensures Encode(Standard, [0x66, 0x6f]) == "Zm8"
    ensures Encode(Standard, [0x66, 0x6f, 0x6f]) == "Zm9v"
    ensures Encode(Standard, [0x66, 0x6f, 0x6f, 0x62]) == "Zm9vYg"
  {
    assert ToSextets([0x66]) == [25, 32];
    assert ToSextets([0x66, 0x6f]) == [25, 38, 60];
    assert ToSextets([0x66, 0x6f, 0x6f]) == [25, 38, 61, 47];
    assert ToSextets([0x66, 0x6f, 0x6f, 0x62]) == [25, 38, 61, 47] + ToSextets([0x62]);
    assert ToSextets([0x62]) == [24, 32];
  }

  /** "Man" encodes to "TWFu" and back. */
  lemma ManVector()
    ensures Encode(Standard, [77, 97, 110]) == "TWFu"
    ensures Decode(Standard, "TWFu") == Some([77, 97, 110])
  {
    assert ToSextets([77, 97, 110]) == [19, 22, 5, 46];
    DecodeEncode(Standard, [77, 97, 110]);
  }

  /**
   * The two alphabets part ways only on groups 62 and 63: the same bytes
   * give `+/` in one and `-_` in the other, and neither reads the other's.
   */
  lemma AlphabetsDiffer()
    ensures Encode(Standard, [0xfb, 0xff]) == "+/8"
    ensures Encode(UrlSafe, [0xfb, 0xff]) == "-_8"
    ensures Decode(Standard, "-_8") == None
    ensures Decode(UrlSafe, "+/8") == None
  {
    assert ToSextets([0xfb, 0xff]) == [62, 63, 60];
    assert !InAlphabet(Standard, "-_8"[0]);
    assert !InAlphabet(UrlSafe, "+/8"[0]);
  }
}

=== FILE: cli_jwt.dfy ===
/**
 * The `jwt sign` command's option types (src/cli/jwt.rs): the digest
 * algorithm and its text form, the header and payload records, and the
 * `time_in_range` validator that every time claim given on the command line
 * passes through.
 */
module CliJwt {
  import opened Base
  import opened Strings

  datatype Algorithm = SHA256 | SHA512

  /** `Algorithm::from_str`: exact, case-sensitive names. */
  function ParseAlgorithm(s: string): (r: Result<Algorithm, string>)
    ensures r.Ok? <==> s == "SHA256" || s == "SHA512"
    ensures r.Ok? ==> AlgorithmName(r.value) == s
    ensures r.Err? ==> r.error == "invalid algorithm"
  {
    match s
    case "SHA256" => Ok(SHA256)
    case "SHA512" => Ok(SHA512)
    case _ => Err("invalid algorithm")
  }

  /** `Into<&str>`; `Display` writes exactly this text. */
  function AlgorithmName(a: Algorithm): (name: string)
    ensures |name| == 6 && name[..3] == "SHA"
    ensures name[3..] == (if a == SHA256 then "256" else "512")
  {
    match a
    case SHA256 => "SHA256"
    case SHA512 => "SHA512"
  }

  /** Printing then parsing gives the variant back. */
  lemma ParseAlgorithmName(a: Algorithm)
    ensures ParseAlgorithm(AlgorithmName(a)) == Ok(a)
  {
  }

  /** `JWTHeader`: the digest to use and the free-form type text. */
  datatype JWTHeader = JWTHeader(alg: Algorithm, typ: string)

  /** `JWTPayload`: subject, issuer, three epoch-second claims and an optional id. */
  datatype JWTPayload = JWTPayload(
    sub: string, iss: string, exp: u64, nbf: u64, iat: u64, jti: Option<string>)

  /** `time_in_range`: a decimal u64 that is not zero. */
  function TimeInRange(input: string): (r: Result<u64, string>)
    ensures r.Ok? <==> ParseU64(input).Some? && ParseU64(input).value > 0
    ensures r.Ok? ==> r.value > 0 && ParseU64(input) == Some(r.value)
    ensures r.Err? ==> r.error == (if ParseU64(input).None? then "time must be a number"
                                   else "time must be greater than 0")
  {
    match ParseU64(input)
    case None => Err("time must be a number")
    case Some(t) => if t > 0 then Ok(t) else Err("time must be greater than 0")
  }

  /** Every positive u64, written in decimal, is accepted unchanged. */
  lemma TimeInRangeAcceptsPositive(t: u64)
    requires t > 0
    ensures TimeInRange(Decimal(t)) == Ok(t)
  {
    ParseU64Decimal(t);
  }

  /** Zero, however written, is refused. */
  lemma TimeInRangeRejectsZero(input: string)
    requires ParseU64(input) == Some(0)
    ensures TimeInRange(input) == Err("time must be greater than 0")
  {
  }

  /**
   * The header that `--alg` and `--typ` build: `SHA256` and `"JWT"` when the
   * option is absent, the text parsed with `ParseAlgorithm` otherwise.
   */
  function HeaderFromArgs(alg: Option<string>, typ: Option<string>): (r: Result<JWTHeader, string>)
    ensures alg.None? ==> r.Ok? && r.value.alg == SHA256
    ensures typ.None? && r.Ok? ==> r.value.typ == "JWT"
    ensures alg.Some? ==> (r.Ok? <==> ParseAlgorithm(alg.value).Ok?)
    ensures r.Ok? && alg.Some? ==> r.value.alg == ParseAlgorithm(alg.value).value
    ensures r.Ok? && typ.Some? ==> r.value.typ == typ.value
    ensures r.Err? ==> r.error == "invalid algorithm"
  {
    var algText := if alg.Some? then alg.value else "SHA256";
    match ParseAlgorithm(algText)
    case Err(e) => Err(e)
    case Ok(a) => Ok(JWTHeader(a, if typ.Some? then typ.value else "JWT"))
  }

  /**
   * The payload that `--sub --iss --exp --nbf --iat [--jti]` build: each time
   * claim goes through `TimeInRange`, the other fields are taken as given.
   */
  function PayloadFromArgs(sub: string, iss: string, exp: string, nbf: string, iat: string,
                           jti: Option<string>): (r: Result<JWTPayload, string>)
    ensures r.Ok? <==> TimeInRange(exp).Ok? && TimeInRange(nbf).Ok? && TimeInRange(iat).Ok?
    ensures r.Ok? ==> r.value.exp > 0 && r.value.nbf > 0 && r.value.iat > 0
    ensures r.Ok? ==> r.value.exp == TimeInRange(exp).value && r.value.nbf == TimeInRange(nbf).value
                      && r.value.iat == TimeInRange(iat).value
    ensures r.Ok? ==> r.value.sub == sub && r.value.iss == iss && r.value.jti == jti
  {
    match (TimeInRange(exp), TimeInRange(nbf), TimeInRange(iat))
    case (Err(e), _, _) => Err(e)
    case (_, Err(e), _) => Err(e)
    case (_, _, Err(e)) => Err(e)
    case (Ok(x), Ok(n), Ok(i)) => Ok(JWTPayload(sub, iss, x, n, i, jti))
  }
}

=== FILE: cli_text.dfy ===
/**
 * The `text` command's option types (src/cli/text.rs): the signing format,
 * its text form, its default, and where `text generate` puts the key files.
 */
module CliText {
  import opened Base
  import opened Strings

  datatype TextSignFormat = Blake3 | Ed25519

  /** `TextSignFormat::from_str`: exact, case-sensitive names. */
  function ParseTextSignFormat(s: string): (r: Result<TextSignFormat, string>)
    ensures r.Ok? <==> s == "blake3" || s == "ed25519"
    ensures r.Ok? ==> FormatName(r.value) == s
    ensures r.Err? ==> r.error == "Invalid format: " + s
  {
    match s
    case "blake3" => Ok(Blake3)
    case "ed25519" => Ok(Ed25519)
    case _ => Err("Invalid format: " + s)
  }

  /** `Into<&str>`; `Display` writes exactly this text, all in lower case. */
  function FormatName(f: TextSignFormat): (name: string)
    ensures AsciiLower(name) == name
    ensures |name| == (if f == Blake3 then 6 else 7)
  {
    match f
    case Blake3 => "blake3"
    case Ed25519 => "ed25519"
  }

  /** Printing then parsing gives the variant back. */
  lemma ParseFormatName(f: TextSignFormat)
    ensures ParseTextSignFormat(FormatName(f)) == Ok(f)
  {
  }

  /** The `--format` default of `sign`, `verify` and `generate`. */
  const DEFAULT_FORMAT: string := "blake3"

  lemma DefaultFormatIsBlake3()
    ensures ParseTextSignFormat(DEFAULT_FORMAT) == Ok(Blake3)
  {
  }

  /** A path as the list of its components; `join` appends one. */
  type Path = seq<string>

  /**
   * The files `TextKeyGenerateOpts::execute` writes for the keys generated
   * for `format`: the private key then the public key for Ed25519, the one
   * shared key for BLAKE3, each under the output directory.
   */
  function KeyFiles(format: TextSignFormat, output: Path, keys: seq<seq<byte>>): (files: seq<(Path, seq<byte>)>)
    requires |keys| >= (if format == Ed25519 then 2 else 1)
    ensures |files| == (if format == Ed25519 then 2 else 1)
    ensures forall k :: 0 <= k < |files| ==> output < files[k].0 && files[k].1 == keys[k]
    ensures forall i, j :: 0 <= i < j < |files| ==> files[i].0 != files[j].0
    ensures format == Ed25519 ==> files[0].0 == output + ["ed25519.sk"] && files[1].0 == output + ["ed25519.pk"]
    ensures format == Blake3 ==> files[0].0 == output + ["blake3.txt"]
  {
    match format
    case Ed25519 =>
      assert (output + ["ed25519.sk"])[|output|] != (output + ["ed25519.pk"])[|output|];
      [(output + ["ed25519.sk"], keys[0]), (output + ["ed25519.pk"], keys[1])]
    case Blake3 => [(output + ["blake3.txt"], keys[0])]
  }
}

=== FILE: csv_opts.dfy ===
/**
 * The `csv` command's output options (src/cli/csv_opts.rs): the output
 * format, parsed case-insensitively and printed in lower case, and the
 * output file name derived from it when none is given.
 */
module CsvOpts {
  import opened Base
  import opened Strings

  datatype OutPutFormat = Json | Yaml | Toml

  /** `Into<&str>`, which `Display` also writes: four lower-case letters. */
  function OutputFormatName(f: OutPutFormat): (name: string)
    ensures |name| == 4 && AsciiLower(name) == name
    ensures '.' !in name
  {
    match f
    case Json => "json"
    case Yaml => "yaml"
    case Toml => "toml"
  }

  /** `OutPutFormat::from_str`: the input is lower-cased, then matched exactly. */
  function ParseOutputFormat(s: string): (r: Result<OutPutFormat, string>)
    ensures r.Ok? <==> AsciiLower(s) in {"json", "yaml", "toml"}
    ensures r.Ok? ==> OutputFormatName(r.value) == AsciiLower(s)
    ensures r.Err? ==> r.error == "Invalid format"
  {
    match AsciiLower(s)
    case "json" => Ok(Json)
    case "yaml" => Ok(Yaml)
    case "toml" => Ok(Toml)
    case _ => Err("Invalid format")
  }

  /** The names are already lower case, so printing then parsing gives the variant back. */
  lemma ParseOutputFormatName(f: OutPutFormat)
    ensures ParseOutputFormat(OutputFormatName(f)) == Ok(f)
  {
    var name := OutputFormatName(f);
    assert AsciiLower(name) == name;
  }

  /** Lower-casing twice changes nothing more. */
  lemma AsciiLowerIdempotent(s: string)
    ensures AsciiLower(AsciiLower(s)) == AsciiLower(s)
  {
    var t := AsciiLower(s);
    forall k | 0 <= k < |s|
      ensures AsciiLower(t)[k] == t[k]
    {
      assert LowerChar(LowerChar(s[k])) == LowerChar(s[k]);
    }
  }

  /** Case does not matter: a string parses exactly as its lower-case form does. */
  lemma ParseIgnoresCase(s: string)
    ensures ParseOutputFormat(s) == ParseOutputFormat(AsciiLower(s))
  {
    AsciiLowerIdempotent(s);
  }

  /** Upper-case names are accepted too. */
  lemma UpperCaseNamesAccepted()
    ensures ParseOutputFormat("JSON") == Ok(Json)
    ensures ParseOutputFormat("Yaml") == Ok(Yaml)
    ensures ParseOutputFormat("TOML") == Ok(Toml)
  {
    assert AsciiLower("JSON") == "json";
    assert AsciiLower("Yaml") == "yaml";
    assert AsciiLower("TOML") == "toml";
  }

  /** The `--format` default. */
  const DEFAULT_OUTPUT_FORMAT: string := "json"

  lemma DefaultOutputFormatIsJson()
    ensures ParseOutputFormat(DEFAULT_OUTPUT_FORMAT) == Ok(Json)
  {
    assert AsciiLower(DEFAULT_OUTPUT_FORMAT) == "json";
  }

  /** `CsvOpts::execute`: the `--output` path verbatim, else `output.<format>`. */
  function OutputPath(output: Option<string>, format: OutPutFormat): (path: string)
    ensures output.Some? ==> path == output.value
    ensures output.None? ==> Split(path, '.') == ["output", OutputFormatName(format)]
  {
    match output
    case Some(p) => p
    case None =>
      var name := OutputFormatName(format);
      var parts := ["output", name];
      assert Join(parts, '.') == "output." + name;
      SplitJoin(parts, '.');
      "output." + name
  }

  /** The default file name's extension is the format's name, and parses back to it. */
  lemma DefaultOutputPathNamesFormat(format: OutPutFormat)
    ensures var parts := Split(OutputPath(None, format), '.');
            |parts| == 2 && parts[0] == "output" && ParseOutputFormat(parts[1]) == Ok(format)
  {
    ParseOutputFormatName(format);
  }
}

=== FILE: gen_jwt.dfy ===
/**
 * Token issuance and validation (src/process/gen_jwt.rs).
 *
 * A token is `H.P.S`: `H` and `P` are the standard-alphabet, unpadded base64
 * of the header's and the payload's JSON text, and `S` that of
 * `Hash(H ++ "." ++ P ++ secret)` with SHA-256 or SHA-512 as the header's
 * `alg` says. This is a plain concatenation, not HMAC. Validation splits on
 * `.`, decodes, checks the time claims and only then recomputes the digest.
 *
 * The hash functions and the JSON serialiser are not part of this model:
 * they are values of `Hashes` and `JsonCodec`, with the properties the
 * model relies on stated as predicates that callers must supply.
 */
module GenJwt {
  import opened Base
  import opened Strings
  import opened Base64
  import opened CliJwt

  /** SHA-256 and SHA-512 (FIPS 180-4) as the `ring::digest` algorithms. */
  datatype Hashes = Hashes(sha256: seq<byte> -> seq<byte>, sha512: seq<byte> -> seq<byte>)
  {
    /** The digest sizes of FIPS 180-4. */
    ghost predicate Valid()
    {
      (forall m :: |sha256(m)| == 32) && (forall m :: |sha512(m)| == 64)
    }

    function Digest(alg: Algorithm, m: seq<byte>): seq<byte>
    {
      match alg
      case SHA256 => sha256(m)
      case SHA512 => sha512(m)
    }
  }

  /**
   * `serde_json` for the two records: the bytes `json!(..).to_string()`
   * produces, and `serde_json::from_slice` (`None` for bytes it rejects).
   */
  datatype JsonCodec = JsonCodec(
    encodeHeader: JWTHeader -> seq<byte>,
    decodeHeader: seq<byte> -> Option<JWTHeader>,
    encodePayload: JWTPayload -> seq<byte>,
    decodePayload: seq<byte> -> Option<JWTPayload>)
  {
    /** What serde promises: deserialising what was serialised gives it back. */
    ghost predicate RoundTrips()
    {
      (forall h :: decodeHeader(encodeHeader(h)) == Some(h)) &&
      (forall p :: decodePayload(encodePayload(p)) == Some(p))
    }
  }

  // ---------------------------------------------------------------------------
  // The digest accumulator (`ring::digest::Context`)
  // ---------------------------------------------------------------------------

  /** A running digest: `update` appends to what has been fed, `finish` hashes it. */
  class DigestContext {
    const alg: Algorithm
    var fed: seq<byte>

    constructor (alg: Algorithm)
      ensures this.alg == alg && fed == []
    {
      this.alg := alg;
      fed := [];
    }

    method Update(data: seq<byte>)
      modifies this
      ensures fed == old(fed) + data
    {
      fed := fed + data;
    }

    method Finish(hashes: Hashes) returns (d: seq<byte>)
      ensures d == hashes.Digest(alg, fed)
    {
      d := hashes.Digest(alg, fed);
    }
  }

  /** `update(a); update(b); finish()` on a new context is the digest of `a ++ b`. */
  method DigestOfParts(hashes: Hashes, alg: Algorithm, a: seq<byte>, b: seq<byte>) returns (d: seq<byte>)
    ensures d == hashes.Digest(alg, a + b)
  {
    var context := new DigestContext(alg);
    context.Update(a);
    context.Update(b);
    assert context.fed == a + b;
    d := context.Finish(hashes);
  }

  // ---------------------------------------------------------------------------
  // Issuance
  // ---------------------------------------------------------------------------

  /** The bytes that are hashed: `H.P` followed by the secret, both as UTF-8. */
  function SigningInput(h64: string, p64: string, secret: string): seq<byte>
  {
    Utf8(h64 + "." + p64) + Utf8(secret)
  }

  function HeaderSegment(json: JsonCodec, header: JWTHeader): string
  {
    Encode(Standard, json.encodeHeader(header))
  }

  function PayloadSegment(json: JsonCodec, payload: JWTPayload): string
  {
    Encode(Standard, json.encodePayload(payload))
  }

  /** `process_gen_jwt`, as a function of its inputs. */
  function Issue(json: JsonCodec, hashes: Hashes, header: JWTHeader, payload: JWTPayload,
                 secret: string): (token: string)
    ensures Count(token, '.') == 2
  {
    var h64 := HeaderSegment(json, header);
    var p64 := PayloadSegment(json, payload);
    var digest := hashes.Digest(header.alg, SigningInput(h64, p64, secret));
    var s64 := Encode(Standard, digest);
    EncodeHasNoDot(Standard, json.encodeHeader(header));
    EncodeHasNoDot(Standard, json.encodePayload(payload));
    EncodeHasNoDot(Standard, digest);
    assert h64 + "." + p64 + "." + s64 == h64 + ["."[0]] + p64 + ["."[0]] + s64;
    h64 + "." + p64 + "." + s64
  }

  /** `process_gen_jwt`: builds the token with two digest contexts, one per branch of `alg`. */
  method GenerateToken(json: JsonCodec, hashes: Hashes, header: JWTHeader, payload: JWTPayload,
                       secret: string) returns (token: string)
    ensures token == Issue(json, hashes, header, payload, secret)
  {
    var h64 := Encode(Standard, json.encodeHeader(header));
    var p64 := Encode(Standard, json.encodePayload(payload));
    var signature := h64 + "." + p64;
    var hash := DigestOfParts(hashes, header.alg, Utf8(signature), Utf8(secret));
    var s64 := Encode(Standard, hash);
    token := h64 + "." + p64 + "." + s64;
  }

  /** An issued token is exactly three segments: header, payload, encoded digest. */
  lemma IssuedTokenSplits(json: JsonCodec, hashes: Hashes, header: JWTHeader, payload: JWTPayload,
                          secret: string)
    ensures var h64 := HeaderSegment(json, header);
            var p64 := PayloadSegment(json, payload);
            Split(Issue(json, hashes, header, payload, secret), '.')
              == [h64, p64, Encode(Standard, hashes.Digest(header.alg, SigningInput(h64, p64, secret)))]
  {
    var h64 := HeaderSegment(json, header);
    var p64 := PayloadSegment(json, payload);
    var s64 := Encode(Standard, hashes.Digest(header.alg, SigningInput(h64, p64, secret)));
    EncodeHasNoDot(Standard, json.encodeHeader(header));
    EncodeHasNoDot(Standard, json.encodePayload(payload));
    EncodeHasNoDot(Standard, hashes.Digest(header.alg, SigningInput(h64, p64, secret)));
    SplitThree(h64, p64, s64, '.');
  }

  /** The signature segment is 43 characters for SHA-256 and 86 for SHA-512. */
  lemma IssuedSignatureLength(json: JsonCodec, hashes: Hashes, header: JWTHeader,
                              payload: JWTPayload, secret: string)
    requires hashes.Valid()
    ensures var parts := Split(Issue(json, hashes, header, payload, secret), '.');
            |parts| == 3 && |parts[2]| == if header.alg == SHA256 then 43 else 86
  {
    IssuedTokenSplits(json, hashes, header, payload, secret);
  }

  // ---------------------------------------------------------------------------
  // Validation
  // ---------------------------------------------------------------------------

  /**
   * The failures of `process_validate_jwt`. The source reports the decoding
   * failures with the library's own error; the model tags each with the
   * step that failed so that the order of the steps is visible.
   */
  datatype JwtError =
    | InvalidToken
    | SignatureBase64 | HeaderBase64 | HeaderJson | PayloadBase64 | PayloadJson
    | InvalidIat | InvalidExp | InvalidNbf

  /**
   * `now` lies in the token's validity window: not issued in the future, not
   * expired, not before its start. A zero claim imposes nothing.
   */
  predicate ClaimsHold(p: JWTPayload, now: nat)
  {
    (p.iat != 0 ==> p.iat <= now) && (p.exp != 0 ==> now <= p.exp) && (p.nbf != 0 ==> p.nbf <= now)
  }

  /** The three claim checks, in the source's order: iat, then exp, then nbf. */
  function CheckClaims(p: JWTPayload, now: nat): (r: Result<(), JwtError>)
    ensures r.Ok? <==> ClaimsHold(p, now)
    ensures r == Err(InvalidIat) <==> p.iat != 0 && now < p.iat
    ensures r == Err(InvalidExp) <==> !(p.iat != 0 && now < p.iat) && p.exp != 0 && p.exp < now
    ensures r == Err(InvalidNbf) <==> !(p.iat != 0 && now < p.iat) && !(p.exp != 0 && p.exp < now)
                                      && p.nbf != 0 && now < p.nbf
    ensures r.Err? ==> r.error in {InvalidIat, InvalidExp, InvalidNbf}
  {
    if p.iat > 0 && p.iat > now then Err(InvalidIat)
    else if p.exp > 0 && p.exp < now then Err(InvalidExp)
    else if p.nbf > 0 && p.nbf > now then Err(InvalidNbf)
    else Ok(())
  }

  /** Zero in all three claims switches every time check off. */
  lemma ZeroClaimsAlwaysHold(p: JWTPayload, now: nat)
    requires p.iat == 0 && p.exp == 0 && p.nbf == 0
    ensures CheckClaims(p, now) == Ok(())
  {
  }

  /** The header a token's first segment decodes to, if any. */
  function TokenHeader(json: JsonCodec, h64: string): Option<JWTHeader>
  {
    match Decode(Standard, h64)
    case None => None
    case Some(bytes) => json.decodeHeader(bytes)
  }

  /**
   * The only third segment that can make `H.P.S` valid under `secret`: the
   * encoded digest with the algorithm `H` names.
   */
  function ExpectedSignature(json: JsonCodec, hashes: Hashes, h64: string, p64: string,
                             secret: string): Option<string>
  {
    match TokenHeader(json, h64)
    case None => None
    case Some(header) => Some(Encode(Standard, hashes.Digest(header.alg, SigningInput(h64, p64, secret))))
  }

  /** The claims a token's second segment decodes to, if any. */
  function TokenPayload(json: JsonCodec, p64: string): Option<JWTPayload>
  {
    match Decode(Standard, p64)
    case None => None
    case Some(bytes) => json.decodePayload(bytes)
  }

  /**
   * `process_validate_jwt`, as a function of its inputs and the clock. A token
   * without exactly two dots is refused before anything is decoded. Otherwise
   * the first failure is reported, in this order: signature base64, header
   * base64, header JSON, payload base64, payload JSON, then the claims. Every
   * token that gets past all of them is accepted, and its answer is whether
   * the header's digest of the first two segments under `secret` equals the
   * signature bytes: a mismatch, whatever its length, is `Ok(false)`.
   */
  function Validate(json: JsonCodec, hashes: Hashes, token: string, secret: string, now: nat)
    : (r: Result<bool, JwtError>)
    ensures r == Err(InvalidToken) <==> Count(token, '.') != 2
    ensures r.Ok? ==>
              var parts := Split(token, '.');
              && |parts| == 3
              && Decode(Standard, parts[2]).Some?
              && TokenHeader(json, parts[0]).Some?
              && TokenPayload(json, parts[1]).Some?
              && ClaimsHold(TokenPayload(json, parts[1]).value, now)
              && r.value == (hashes.Digest(TokenHeader(json, parts[0]).value.alg,
                                           SigningInput(parts[0], parts[1], secret))
                             == Decode(Standard, parts[2]).value)
    ensures |Split(token, '.')| == 3 ==>
              var parts := Split(token, '.');
              var signature, header := Decode(Standard, parts[2]), TokenHeader(json, parts[0]);
              && (r == Err(SignatureBase64) <==> signature.None?)
              && (r == Err(HeaderBase64) <==> signature.Some? && Decode(Standard, parts[0]).None?)
              && (r == Err(HeaderJson) <==>
                    signature.Some? && Decode(Standard, parts[0]).Some? && header.None?)
              && (r == Err(PayloadBase64) <==> signature.Some? && header.Some? && Decode(Standard, parts[1]).None?)
              && (r == Err(PayloadJson) <==>
                    signature.Some? && header.Some? && Decode(Standard, parts[1]).Some?
                    && TokenPayload(json, parts[1]).None?)
              && (signature.Some? && header.Some? && TokenPayload(json, parts[1]).Some? ==>
                    var claims := CheckClaims(TokenPayload(json, parts[1]).value, now);
                    && (r.Err? <==> claims.Err?)
                    && (claims.Err? ==> r == Err(claims.error)))
    ensures r.Ok? <==>
              var parts := Split(token, '.');
              && |parts| == 3
              && Decode(Standard, parts[2]).Some?
              && TokenHeader(json, parts[0]).Some?
              && TokenPayload(json, parts[1]).Some?
              && ClaimsHold(TokenPayload(json, parts[1]).value, now)
  {
    SplitCount(token, '.');
    var parts := Split(token, '.');
    if |parts| != 3 then Err(InvalidToken)
    else
      match Decode(Standard, parts[2])
      case None => Err(SignatureBase64)
      case Some(signature) =>
        match Decode(Standard, parts[0])
        case None => Err(HeaderBase64)
        case Some(headerJson) =>
          match json.decodeHeader(headerJson)
          case None => Err(HeaderJson)
          case Some(header) =>
            match Decode(Standard, parts[1])
            case None => Err(PayloadBase64)
            case Some(payloadJson) =>
              match json.decodePayload(payloadJson)
              case None => Err(PayloadJson)
              case Some(payload) =>
                match CheckClaims(payload, now)
                case Err(e) => Err(e)
                case Ok(_) =>
                  Ok(hashes.Digest(header.alg, SigningInput(parts[0], parts[1], secret)) == signature)
  }

  /** `process_validate_jwt`, with early returns and a digest context. */
  method ValidateToken(json: JsonCodec, hashes: Hashes, token: string, secret: string, now: nat)
    returns (r: Result<bool, JwtError>)
    ensures r == Validate(json, hashes, token, secret, now)
  {
    var parts := Split(token, '.');
    if |parts| != 3 {
      return Err(InvalidToken);
    }
    var header64, payload64, signature64 := parts[0], parts[1], parts[2];
    var signature := Decode(Standard, signature64);
    if signature.None? {
      return Err(SignatureBase64);
    }
    var headerJson := Decode(Standard, header64);
    if headerJson.None? {
      return Err(HeaderBase64);
    }
    var header := json.decodeHeader(headerJson.value);
    if header.None? {
      return Err(HeaderJson);
    }
    var payloadJson := Decode(Standard, payload64);
    if payloadJson.None? {
      return Err(PayloadBase64);
    }
    var payload := json.decodePayload(payloadJson.value);
    if payload.None? {
      return Err(PayloadJson);
    }
    var p := payload.value;
    if p.iat > 0 && p.iat > now {
      return Err(InvalidIat);
    }
    if p.exp > 0 && p.exp < now {
      return Err(InvalidExp);
    }
    if p.nbf > 0 && p.nbf > now {
      return Err(InvalidNbf);
    }
    var signatureConcat := header64 + "." + payload64;
    var hash := DigestOfParts(hashes, header.value.alg, Utf8(signatureConcat), Utf8(secret));
    r := Ok(hash == signature.value);
  }

  /**
   * Every failure comes before the secret is used: whatever is refused under
   * one secret is refused, for the same reason, under any other.
   */
  lemma ValidateErrorsIgnoreSecret(json: JsonCodec, hashes: Hashes, token: string,
                                   secret: string, other: string, now: nat)
    requires Validate(json, hashes, token, secret, now).Err?
    ensures Validate(json, hashes, token, other, now) == Validate(json, hashes, token, secret, now)
  {
  }

  /**
   * The signature segment is decoded first: a three-segment token whose third
   * segment is not Base64 is refused for that, whatever its header and payload.
   */
  lemma ValidateDecodesSignatureFirst(json: JsonCodec, hashes: Hashes, h64: string, p64: string,
                                      s64: string, secret: string, now: nat)
    requires '.' !in h64 && '.' !in p64 && '.' !in s64
    requires Decode(Standard, s64).None?
    ensures Validate(json, hashes, h64 + "." + p64 + "." + s64, secret, now) == Err(SignatureBase64)
  {
    SplitThree(h64, p64, s64, '.');
  }

  /**
   * Validating an issued token: the claim error if the claims fail at `now`,
   * otherwise `true` exactly when the digest under the validating secret
   * equals the one under the issuing secret.
   */
  lemma ValidateIssued(json: JsonCodec, hashes: Hashes, header: JWTHeader, payload: JWTPayload,
                       issuing: string, validating: string, now: nat)
    requires json.RoundTrips()
    ensures var h64 := HeaderSegment(json, header);
            var p64 := PayloadSegment(json, payload);
            Validate(json, hashes, Issue(json, hashes, header, payload, issuing), validating, now)
              == match CheckClaims(payload, now)
                 case Err(e) => Err(e)
                 case Ok(_) => Ok(hashes.Digest(header.alg, SigningInput(h64, p64, validating))
                                  == hashes.Digest(header.alg, SigningInput(h64, p64, issuing)))
  {
    var h64 := HeaderSegment(json, header);
    var p64 := PayloadSegment(json, payload);
    var digest := hashes.Digest(header.alg, SigningInput(h64, p64, issuing));
    IssuedTokenSplits(json, hashes, header, payload, issuing);
    DecodeEncode(Standard, digest);
    DecodeEncode(Standard, json.encodeHeader(header));
    DecodeEncode(Standard, json.encodePayload(payload));
  }

  /** Round trip: an issued token validates with its own secret while its claims hold. */
  lemma IssueThenValidate(json: JsonCodec, hashes: Hashes, header: JWTHeader, payload: JWTPayload,
                          secret: string, now: nat)
    requires json.RoundTrips()
    requires ClaimsHold(payload, now)
    ensures Validate(json, hashes, Issue(json, hashes, header, payload, secret), secret, now) == Ok(true)
  {
    ValidateIssued(json, hashes, header, payload, secret, secret, now);
  }

  /** An expired token whose iat has passed is refused with `InvalidExp`, whatever the secret. */
  lemma ExpiredTokenRefused(json: JsonCodec, hashes: Hashes, header: JWTHeader, payload: JWTPayload,
                            issuing: string, validating: string, now: nat)
    requires json.RoundTrips()
    requires payload.iat <= now && payload.exp > 0 && payload.exp < now
    ensures Validate(json, hashes, Issue(json, hashes, header, payload, issuing), validating, now)
              == Err(InvalidExp)
  {
    ValidateIssued(json, hashes, header, payload, issuing, validating, now);
  }

  /**
   * Soundness: a token that validates is its first two segments followed by
   * the expected signature for them under the secret given.
   */
  lemma ValidTokenIsSigned(json: JsonCodec, hashes: Hashes, token: string, secret: string, now: nat)
    requires Validate(json, hashes, token, secret, now) == Ok(true)
    ensures var parts := Split(token, '.');
            |parts| == 3 &&
            ExpectedSignature(json, hashes, parts[0], parts[1], secret) == Some(parts[2]) &&
            token == parts[0] + "." + parts[1] + "." + parts[2]
  {
    var parts := Split(token, '.');
    EncodeDecode(Standard, parts[2]);
    JoinThree(token, '.');
  }

  /** Changing the signature segment of a valid token makes it invalid. */
  lemma TamperedSignatureRefused(json: JsonCodec, hashes: Hashes, h64: string, p64: string,
                                 s64: string, forged: string, secret: string, now: nat)
    requires '.' !in h64 && '.' !in p64 && '.' !in s64 && '.' !in forged
    requires forged != s64
    requires Validate(json, hashes, h64 + "." + p64 + "." + s64, secret, now) == Ok(true)
    ensures Validate(json, hashes, h64 + "." + p64 + "." + forged, secret, now) != Ok(true)
  {
    SplitThree(h64, p64, s64, '.');
    SplitThree(h64, p64, forged, '.');
    ValidTokenIsSigned(json, hashes, h64 + "." + p64 + "." + s64, secret, now);
    if Validate(json, hashes, h64 + "." + p64 + "." + forged, secret, now) == Ok(true) {
      ValidTokenIsSigned(json, hashes, h64 + "." + p64 + "." + forged, secret, now);
    }
  }
}

=== FILE: gen_pass.dfy ===
/**
 * Password generation (01_rcli/src/process/gen_pass.rs): one character from
 * each selected class, the rest drawn from the union of the selected
 * classes, then an in-place shuffle.
 *
 * The random number generator is an oracle `rng(step, bound)`, reduced
 * modulo `bound`; `step` counts the draws so that every draw may differ.
 * The byte-string alphabets are ASCII, so each byte is written as the
 * character with that code.
 */
module GenPass {
  import opened Base

  /** `rng(step, bound) % bound` is the index chosen by the `step`-th draw from `0..bound`. */
  type Rng = (nat, nat) -> nat

  /** Capital letters without `O`. */
  const UPPER: string := "ABCDEFGHIJKLMNPQRSTUVWXYZ"
  /** Small letters without `i` and `l`. */
  const LOWER: string := "abcdefghjkmnopqrstuvwxyz"
  /** Digits without `0`. */
  const NUMBER: string := "123456789"
  const SYMBOL: string := "!\"#$%&'()*+,-./:;<=>?@[]^_{|}~"

  /** Glyphs easily confused with another are left out. */
  lemma AmbiguousGlyphsOmitted()
    ensures 'O' !in UPPER && '0' !in NUMBER
    ensures 'i' !in LOWER && 'l' !in LOWER
  {
  }

  predicate IsAscii(c: char)
  {
    c as int < 0x80
  }

  /** Every character of `s` is ASCII. */
  predicate AllAscii(s: string)
  {
    forall k :: 0 <= k < |s| ==> IsAscii(s[k])
  }

  /** Every class is ASCII, so the bytes form valid UTF-8 one character each. */
  lemma ClassesAreAscii()
    ensures AllAscii(UPPER) && AllAscii(LOWER) && AllAscii(NUMBER) && AllAscii(SYMBOL)
  {
    assert AllAscii(UPPER);
    assert AllAscii(LOWER);
    assert AllAscii(NUMBER);
    assert AllAscii(SYMBOL);
  }

  /** The classes selected by the four flags, in the order they are seeded. */
  function Classes(upper: bool, lower: bool, number: bool, symbol: bool): (classes: seq<string>)
    ensures |classes| <= 4
    ensures forall k :: 0 <= k < |classes| ==> |classes[k]| > 0
  {
    (if upper then [UPPER] else []) + (if lower then [LOWER] else [])
    + (if number then [NUMBER] else []) + (if symbol then [SYMBOL] else [])
  }

  /** The `chars` pool: the selected classes one after another. */
  function Pool(upper: bool, lower: bool, number: bool, symbol: bool): (pool: string)
    ensures forall c :: c in pool <==>
              (upper && c in UPPER) || (lower && c in LOWER) || (number && c in NUMBER) || (symbol && c in SYMBOL)
    ensures |pool| == (if upper then |UPPER| else 0) + (if lower then |LOWER| else 0)
                      + (if number then |NUMBER| else 0) + (if symbol then |SYMBOL| else 0)
  {
    (if upper then UPPER else []) + (if lower then LOWER else [])
    + (if number then NUMBER else []) + (if symbol then SYMBOL else [])
  }

  /** The pool is empty exactly when no class is selected. */
  lemma PoolEmptyIffNoClass(upper: bool, lower: bool, number: bool, symbol: bool)
    ensures Pool(upper, lower, number, symbol) == [] <==> Classes(upper, lower, number, symbol) == []
  {
  }

  /** Hence so is every pool. */
  lemma PoolIsAscii(upper: bool, lower: bool, number: bool, symbol: bool)
    ensures forall c :: c in Pool(upper, lower, number, symbol) ==> IsAscii(c)
  {
    ClassesAreAscii();
  }

  /** `slice.choose(&mut rng)` on a non-empty slice. */
  function Pick(rng: Rng, step: nat, pool: string): (c: char)
    requires |pool| > 0
    ensures c in pool
  {
    pool[rng(step, |pool|) % |pool|]
  }

  /** `password` holds at least one character of `alphabet`. */
  predicate Represents(password: string, alphabet: string)
  {
    exists c :: c in password && c in alphabet
  }

  /**
   * `SliceRandom::shuffle` (rand 0.8): for `i` from the last index down to 1,
   * swap `a[i]` with `a[j]` for a `j` drawn from `0..=i`.
   */
  method Shuffle(a: array<char>, rng: Rng, step: nat)
    modifies a
    ensures multiset(a[..]) == multiset(old(a[..]))
  {
    var i := a.Length;
    while i > 1
      invariant 0 <= i <= a.Length
      invariant multiset(a[..]) == multiset(old(a[..]))
    {
      i := i - 1;
      var j := rng(step + (a.Length - 1 - i), i + 1) % (i + 1);
      a[i], a[j] := a[j], a[i];
    }
  }

  /** Having a character of a class survives any reordering. */
  lemma RepresentsPermutation(s: string, t: string, alphabet: string)
    requires multiset(s) == multiset(t)
    requires Represents(s, alphabet)
    ensures Represents(t, alphabet)
  {
    var c :| c in s && c in alphabet;
    assert c in multiset(t);
  }

  /** ... and any extension at the end. */
  lemma RepresentsPrefix(s: string, t: string, alphabet: string)
    requires |s| <= |t| && t[..|s|] == s
    requires Represents(s, alphabet)
    ensures Represents(t, alphabet)
  {
    var c :| c in s && c in alphabet;
    assert t == s + t[|s|..];
  }

  /**
   * One `if` block: when the class is selected, `chars.extend_from_slice(class)`
   * and `password.push(*class.choose(&mut rng))`.
   */
  method SeedClass(selected: bool, alphabet: string, seeded: string, chars: string, draws: nat, rng: Rng)
    returns (seeded': string, chars': string, draws': nat)
    requires |alphabet| > 0
    requires forall k :: 0 <= k < |seeded| ==> seeded[k] in chars
    ensures chars' == chars + (if selected then alphabet else [])
    ensures |seeded'| == |seeded| + (if selected then 1 else 0) && seeded'[..|seeded|] == seeded
    ensures forall k :: 0 <= k < |seeded'| ==> seeded'[k] in chars'
    ensures selected ==> seeded'[|seeded|] in alphabet && Represents(seeded', alphabet)
  {
    seeded', chars', draws' := seeded, chars, draws;
    if selected {
      var c := Pick(rng, draws, alphabet);
      chars' := chars + alphabet;
      seeded' := seeded + [c];
      assert seeded'[..|seeded|] == seeded;
      draws' := draws + 1;
    } else {
      assert chars' == chars + [];
    }
  }

  /**
   * The four `if` blocks: each selected class joins the pool and gives the
   * password one character of its own.
   */
  method Seed(upper: bool, lower: bool, number: bool, symbol: bool, rng: Rng)
    returns (seeded: string, chars: string, draws: nat)
    ensures chars == Pool(upper, lower, number, symbol)
    ensures |seeded| == |Classes(upper, lower, number, symbol)|
    ensures forall k :: 0 <= k < |seeded| ==> seeded[k] in chars
    ensures upper ==> Represents(seeded, UPPER)
    ensures lower ==> Represents(seeded, LOWER)
    ensures number ==> Represents(seeded, NUMBER)
    ensures symbol ==> Represents(seeded, SYMBOL)
  {
    var s0, s1, s2, s3: string;
    var c0, c1, c2: string;
    var d0, d1, d2: nat;
    s0, c0, d0 := SeedClass(upper, UPPER, [], [], 0, rng);
    s1, c1, d1 := SeedClass(lower, LOWER, s0, c0, d0, rng);
    s2, c2, d2 := SeedClass(number, NUMBER, s1, c1, d1, rng);
    seeded, chars, draws := SeedClass(symbol, SYMBOL, s2, c2, d2, rng);
    assert chars == Pool(upper, lower, number, symbol) by {
      assert c0 == (if upper then UPPER else []);
    }
    assert upper ==> Represents(seeded, UPPER) by {
      if upper {
        RepresentsPrefix(s0, s1, UPPER);
        RepresentsPrefix(s1, s2, UPPER);
        RepresentsPrefix(s2, seeded, UPPER);
      }
    }
    assert lower ==> Represents(seeded, LOWER) by {
      if lower {
        RepresentsPrefix(s1, s2, LOWER);
        RepresentsPrefix(s2, seeded, LOWER);
      }
    }
    assert number ==> Represents(seeded, NUMBER) by {
      if number {
        RepresentsPrefix(s2, seeded, NUMBER);
      }
    }
  }

  /**
   * The fill loop: `count` more characters drawn from `chars`, appended to
   * `seeded`, which is kept as a prefix.
   */
  method Fill(seeded: string, chars: string, count: nat, rng: Rng, first: nat)
    returns (built: string, next: nat)
    requires count > 0 ==> |chars| > 0
    ensures |built| == |seeded| + count
    ensures built[..|seeded|] == seeded
    ensures forall k :: |seeded| <= k < |built| ==> built[k] in chars
  {
    built, next := seeded, first;
    for i := 0 to count
      invariant |built| == |seeded| + i
      invariant built[..|seeded|] == seeded
      invariant forall k :: |seeded| <= k < |built| ==> built[k] in chars
    {
      built := built + [Pick(rng, next, chars)];
      next := next + 1;
    }
  }

  /**
   * `process_genpass` up to the `println!`: a password of exactly `length`
   * characters, every one from the selected classes, each selected class
   * present. The caller must select no more classes than `length` (the `u8`
   * subtraction would underflow) and some class when `length > 0` (the
   * `expect` on the empty pool would panic).
   */
  method GenPassword(length: byte, upper: bool, lower: bool, number: bool, symbol: bool, rng: Rng)
    returns (password: string)
    requires |Classes(upper, lower, number, symbol)| <= length
    requires Classes(upper, lower, number, symbol) == [] ==> length == 0
    ensures |password| == length
    ensures forall k :: 0 <= k < |password| ==> password[k] in Pool(upper, lower, number, symbol)
    ensures AllAscii(password)
    ensures upper ==> Represents(password, UPPER)
    ensures lower ==> Represents(password, LOWER)
    ensures number ==> Represents(password, NUMBER)
    ensures symbol ==> Represents(password, SYMBOL)
  {
    var seeded, chars, draws := Seed(upper, lower, number, symbol, rng);
    PoolEmptyIffNoClass(upper, lower, number, symbol);
    var built, next := Fill(seeded, chars, length - |seeded|, rng, draws);
    assert forall k :: 0 <= k < |built| ==> built[k] in chars by {
      forall k | 0 <= k < |seeded| ensures built[k] in chars {
        assert built[k] == seeded[k];
      }
    }

    var a := new char[|built|](k requires 0 <= k < |built| => built[k]);
    assert a[..] == built;
    Shuffle(a, rng, next);
    password := a[..];
    forall k | 0 <= k < |password|
      ensures password[k] in chars
    {
      assert password[k] in multiset(built);
    }
    PoolIsAscii(upper, lower, number, symbol);
    if upper { RepresentsPrefix(seeded, built, UPPER); RepresentsPermutation(built, password, UPPER); }
    if lower { RepresentsPrefix(seeded, built, LOWER); RepresentsPermutation(built, password, LOWER); }
    if number { RepresentsPrefix(seeded, built, NUMBER); RepresentsPermutation(built, password, NUMBER); }
    if symbol { RepresentsPrefix(seeded, built, SYMBOL); RepresentsPermutation(built, password, SYMBOL); }
  }
}

=== FILE: strings.dfy ===
/**
 * String helpers the core relies on from Rust's standard library:
 * `str::split` on one character, `String::as_bytes` (UTF-8),
 * `str::to_lowercase` on ASCII text and `u64::from_str`.
 */
module Strings {
  import opened Base

  // ---------------------------------------------------------------------------
  // Splitting on a separator character (`str::split(char)`), and its inverse.
  // ---------------------------------------------------------------------------

  /** Number of occurrences of `c` in `s`. */
  function Count(s: string, c: char): nat
  {
    multiset(s)[c]
  }

  /** Position of the first `c` in `s`. */
  function FirstIndex(s: string, c: char): (i: nat)
    requires c in s
    ensures i < |s| && s[i] == c && c !in s[..i]
  {
    if s[0] == c then 0 else 1 + FirstIndex(s[1..], c)
  }

  /**
   * `s.split(sep).collect::<Vec<_>>()`: the pieces between separators, in
   * order; `n` separators give `n + 1` pieces (empty ones included).
   */
  function Split(s: string, sep: char): (parts: seq<string>)
    ensures |parts| >= 1
    ensures forall k :: 0 <= k < |parts| ==> sep !in parts[k]
    decreases |s|
  {
    if sep !in s then [s]
    else
      var i := FirstIndex(s, sep);
      [s[..i]] + Split(s[i + 1..], sep)
  }

  /** The pieces glued back together with `sep` between neighbours. */
  function Join(parts: seq<string>, sep: char): string
    requires |parts| >= 1
  {
    if |parts| == 1 then parts[0] else parts[0] + [sep] + Join(parts[1..], sep)
  }

  /** Splitting loses nothing: joining the pieces gives the string back. */
  lemma {:induction false} JoinSplit(s: string, sep: char)
    ensures Join(Split(s, sep), sep) == s
    decreases |s|
  {
    if sep in s {
      var i := FirstIndex(s, sep);
      var rest := s[i + 1..];
      JoinSplit(rest, sep);
      assert Split(s, sep)[1..] == Split(rest, sep);
      assert s == s[..i] + [sep] + rest;
    }
  }

  lemma {:induction false} FirstIndexAfter(p: string, rest: string, sep: char)
    requires sep !in p
    ensures sep in p + [sep] + rest && FirstIndex(p + [sep] + rest, sep) == |p|
  {
    var s := p + [sep] + rest;
    assert s[|p|] == sep;
    if p != [] {
      assert s[1..] == p[1..] + [sep] + rest;
      FirstIndexAfter(p[1..], rest, sep);
    }
  }

  /** Joining pieces that hold no separator and splitting again gives the pieces. */
  lemma {:induction false} SplitJoin(parts: seq<string>, sep: char)
    requires |parts| >= 1
    requires forall k :: 0 <= k < |parts| ==> sep !in parts[k]
    ensures Split(Join(parts, sep), sep) == parts
  {
    if |parts| > 1 {
      var rest := Join(parts[1..], sep);
      var s := parts[0] + [sep] + rest;
      FirstIndexAfter(parts[0], rest, sep);
      var i := FirstIndex(s, sep);
      assert s[..i] == parts[0];
      assert s[i + 1..] == rest;
      SplitJoin(parts[1..], sep);
    }
  }

  /** The three-piece case used for tokens, spelled out. */
  lemma SplitThree(a: string, b: string, c: string, sep: char)
    requires sep !in a && sep !in b && sep !in c
    ensures Split(a + [sep] + b + [sep] + c, sep) == [a, b, c]
  {
    var parts := [a, b, c];
    assert Join(parts[2..], sep) == c;
    assert Join(parts[1..], sep) == b + [sep] + c;
    assert Join(parts, sep) == a + [sep] + b + [sep] + c;
    SplitJoin(parts, sep);
  }

  /** A string that splits into three pieces is those pieces joined. */
  lemma JoinThree(s: string, sep: char)
    requires |Split(s, sep)| == 3
    ensures var parts := Split(s, sep);
            s == parts[0] + [sep] + parts[1] + [sep] + parts[2]
  {
    var parts := Split(s, sep);
    JoinSplit(s, sep);
    assert parts[1..][1..] == [parts[2]];
    assert Join(parts[1..], sep) == parts[1] + [sep] + parts[2];
  }

  /** `split` yields one more piece than there are separators. */
  lemma {:induction false} SplitCount(s: string, sep: char)
    ensures |Split(s, sep)| == Count(s, sep) + 1
    decreases |s|
  {
    if sep in s {
      var i := FirstIndex(s, sep);
      SplitCount(s[i + 1..], sep);
      assert s == s[..i] + [sep] + s[i + 1..];
      assert multiset(s) == multiset(s[..i]) + multiset([sep]) + multiset(s[i + 1..]);
    } else {
      assert multiset(s)[sep] == 0;
    }
  }

  // ---------------------------------------------------------------------------
  // `String::as_bytes`: the UTF-8 encoding of a string.
  // ---------------------------------------------------------------------------

  /**
   * UTF-8 bytes of one Unicode scalar value (section 3 of RFC 3629): one to
   * four bytes, the lead byte telling how many, every other byte a
   * continuation byte `10xxxxxx`; ASCII is its own code.
   */
  function Utf8Char(c: char): (r: seq<byte>)
    ensures 1 <= |r| <= 4
    ensures c as int < 0x80 ==> r == [c as int]
    ensures |r| == 1 <==> r[0] < 0x80
    ensures |r| == 2 <==> 0xC0 <= r[0] < 0xE0
    ensures |r| == 3 <==> 0xE0 <= r[0] < 0xF0
    ensures |r| == 4 <==> 0xF0 <= r[0] < 0xF8
    ensures forall k :: 1 <= k < |r| ==> 0x80 <= r[k] < 0xC0
  {
    var n := c as int;
    if n < 0x80 then [n]
    else if n < 0x800 then [0xC0 + n / 64, 0x80 + n % 64]
    else if n < 0x1_0000 then [0xE0 + n / 4096, 0x80 + (n / 64) % 64, 0x80 + n % 64]
    else [0xF0 + n / 262144, 0x80 + (n / 4096) % 64, 0x80 + (n / 64) % 64, 0x80 + n % 64]
  }

  /** The scalar value a well-formed one-character UTF-8 sequence stands for. */
  function Utf8CharValue(r: seq<byte>): int
    requires 1 <= |r| <= 4
  {
    var b: seq<int> := seq(|r|, k requires 0 <= k < |r| => r[k] as int);
    if |b| == 1 then b[0]
    else if |b| == 2 then (b[0] - 0xC0) * 64 + (b[1] - 0x80)
    else if |b| == 3 then ((b[0] - 0xE0) * 64 + (b[1] - 0x80)) * 64 + (b[2] - 0x80)
    else (((b[0] - 0xF0) * 64 + (b[1] - 0x80)) * 64 + (b[2] - 0x80)) * 64 + (b[3] - 0x80)
  }

  /** Decoding one encoded character gives it back. */
  lemma Utf8CharRoundTrip(c: char)
    ensures Utf8CharValue(Utf8Char(c)) == c as int
  {
    var n := c as int;
    if n >= 0x800 && n < 0x1_0000 {
      assert (n / 4096) * 64 + (n / 64) % 64 == n / 64;
    } else if n >= 0x1_0000 {
      assert (n / 262144) * 64 + (n / 4096) % 64 == n / 4096;
      assert (n / 4096) * 64 + (n / 64) % 64 == n / 64;
    }
  }

  /** `as_bytes`: the characters' encodings back to back; ASCII text is its codes. */
  function Utf8(s: string): (r: seq<byte>)
    ensures |r| >= |s|
    ensures (forall k :: 0 <= k < |s| ==> s[k] as int < 0x80) ==>
              |r| == |s| && forall k :: 0 <= k < |s| ==> r[k] == s[k] as int
  {
    if s == [] then [] else Utf8Char(s[0]) + Utf8(s[1..])
  }

  /** Encoding text is injective: distinct strings never give the same bytes. */
  lemma {:induction false} Utf8Injective(s: string, t: string)
    requires Utf8(s) == Utf8(t)
    ensures s == t
    decreases |s|
  {
    if s != [] && t != [] {
      var a, b := Utf8Char(s[0]), Utf8Char(t[0]);
      assert a[0] == Utf8(s)[0] == Utf8(t)[0] == b[0];
      assert |a| == |b|;
      assert a == Utf8(s)[..|a|] == Utf8(t)[..|b|] == b;
      Utf8CharRoundTrip(s[0]);
      Utf8CharRoundTrip(t[0]);
      assert Utf8(s[1..]) == Utf8(s)[|a|..] == Utf8(t)[|b|..] == Utf8(t[1..]);
      Utf8Injective(s[1..], t[1..]);
      assert s == [s[0]] + s[1..] && t == [t[0]] + t[1..];
    }
  }

  // ---------------------------------------------------------------------------
  // `str::to_lowercase` restricted to ASCII letters.
  // ---------------------------------------------------------------------------

  function LowerChar(c: char): char
  {
    if 'A' <= c <= 'Z' then (c as int + 32) as char else c
  }

  /**
   * Capital ASCII letters become the small letter 32 code points above;
   * every other character is kept, so the result has no capital letter.
   */
  function AsciiLower(s: string): (r: string)
    ensures |r| == |s|
    ensures forall k :: 0 <= k < |r| ==> !('A' <= r[k] <= 'Z')
    ensures forall k :: 0 <= k < |s| && 'A' <= s[k] <= 'Z' ==> r[k] as int == s[k] as int + 32
    ensures forall k :: 0 <= k < |s| && !('A' <= s[k] <= 'Z') ==> r[k] == s[k]
    ensures (forall k :: 0 <= k < |s| ==> !('A' <= s[k] <= 'Z')) ==> r == s
  {
    seq(|s|, k requires 0 <= k < |s| => LowerChar(s[k]))
  }

  // ---------------------------------------------------------------------------
  // `u64::from_str` (decimal), and decimal printing as its partner.
  // ---------------------------------------------------------------------------

  predicate IsDigit(c: char)
  {
    '0' <= c <= '9'
  }

  predicate AllDigits(s: string)
  {
    forall k :: 0 <= k < |s| ==> IsDigit(s[k])
  }

  /** Value of a string of decimal digits, most significant first. */
  function DigitsValue(s: string): nat
    requires AllDigits(s)
  {
    if s == [] then 0
    else DigitsValue(s[..|s| - 1]) * 10 + (s[|s| - 1] as int - '0' as int)
  }

  /** Shortest decimal representation of `n`. */
  function Decimal(n: nat): (s: string)
    ensures |s| >= 1 && AllDigits(s)
  {
    var d := ('0' as int + n % 10) as char;
    if n < 10 then [d] else Decimal(n / 10) + [d]
  }

  lemma {:induction false} DigitsValueDecimal(n: nat)
    ensures DigitsValue(Decimal(n)) == n
  {
    if n >= 10 {
      var s := Decimal(n);
      assert s[..|s| - 1] == Decimal(n / 10);
      DigitsValueDecimal(n / 10);
    }
  }

  /**
   * `s.parse::<u64>()`: an optional leading `+`, then one or more decimal
   * digits, whose value must fit in 64 bits. A lone `+`, a `-`, an empty
   * string, any other character or an overflow are errors (`None`).
   */
  function ParseU64(s: string): (r: Option<u64>)
    ensures r.Some? ==> |s| >= 1 && var digits := if s[0] == '+' then s[1..] else s;
                        |digits| >= 1 && AllDigits(digits) && DigitsValue(digits) == r.value
    ensures |s| >= 1 && AllDigits(s) && DigitsValue(s) <= U64_MAX ==> r == Some(DigitsValue(s))
    ensures |s| >= 2 && s[0] == '+' && AllDigits(s[1..]) && DigitsValue(s[1..]) <= U64_MAX
            ==> r == Some(DigitsValue(s[1..]))
    ensures '-' in s ==> r.None?
    ensures s == [] || s == "+" ==> r.None?
  {
    var digits := if |s| >= 2 && s[0] == '+' then s[1..] else s;
    if digits == [] || !AllDigits(digits) then None
    else
      var v := DigitsValue(digits);
      if v > U64_MAX then None else Some(v)
  }

  /** Every 64-bit value prints to a string that parses back to it. */
  lemma ParseU64Decimal(n: u64)
    ensures ParseU64(Decimal(n)) == Some(n)
  {
    var s := Decimal(n);
    DigitsValueDecimal(n);
    assert s[0] != '+' by { assert IsDigit(s[0]); }
  }
}

=== FILE: text_sign.dfy ===
/**
 * Text signing and verification (src/process/text.rs): a BLAKE3 keyed hash
 * and Ed25519 signatures (RFC 8032), each behind a key-loading constructor
 * with its own length rule, and the two commands that pick one by format,
 * read the whole input and print or check a URL-safe unpadded base64
 * signature (section 5 of RFC 4648).
 *
 * BLAKE3 and Ed25519 are not part of this model: they are the functions of
 * `SignaturePrimitives`, and `Valid()` states the only facts used about them.
 */
module TextSign {
  import opened Base
  import opened Base64
  import CliText

  /** `[u8; 32]`: every key in this module is exactly 32 bytes. */
  type Key32 = s: seq<byte> | |s| == 32 witness seq(32, k => 0)

  datatype SignaturePrimitives = SignaturePrimitives(
    keyedHash: (seq<byte>, seq<byte>) -> seq<byte>,          // blake3::keyed_hash(key, data)
    publicKey: seq<byte> -> seq<byte>,                       // SigningKey::verifying_key
    isPublicKey: seq<byte> -> bool,                          // VerifyingKey::from_bytes succeeds
    sign: (seq<byte>, seq<byte>) -> seq<byte>,               // SigningKey::sign(data)
    verify: (seq<byte>, seq<byte>, seq<byte>) -> bool)       // VerifyingKey::verify(data, sig).is_ok()
  {
    /**
     * BLAKE3 output and Ed25519 signatures have 32 and 64 bytes; the public
     * key of a 32-byte seed is a valid 32-byte key that accepts every
     * signature the seed makes.
     */
    ghost predicate Valid()
    {
      && (forall key, data :: |keyedHash(key, data)| == 32)
      && (forall seed, data :: |sign(seed, data)| == 64)
      && (forall seed: Key32 :: |publicKey(seed)| == 32 && isPublicKey(publicKey(seed)))
      && (forall seed: Key32, data :: verify(publicKey(seed), data, sign(seed, data)))
    }
  }

  /** The failures the commands report. `Panic` stands for a slice index panic. */
  datatype TextError = KeyLength | InvalidPublicKey | SignatureBase64 | Panic

  datatype Blake3 = Blake3(key: Key32)
  datatype Ed25519Signer = Ed25519Signer(key: Key32)
  datatype Ed25519Verifier = Ed25519Verifier(key: Key32)

  // ---------------------------------------------------------------------------
  // Key loading
  // ---------------------------------------------------------------------------

  /** `Blake3::try_new`: slices the first 32 bytes (a shorter key panics). */
  function Blake3TryNew(key: seq<byte>): (signer: Blake3)
    requires |key| >= 32
    ensures signer.key <= key
  {
    Blake3(key[..32])
  }

  /** Bytes after the 32nd do not change the key. */
  lemma Blake3KeyIgnoresExtra(key: seq<byte>, extra: seq<byte>)
    requires |key| >= 32
    ensures Blake3TryNew(key + extra) == Blake3TryNew(key)
  {
    assert (key + extra)[..32] == key[..32];
  }

  /** `Ed25519Signer::try_new`: exactly 32 bytes, taken as the seed. */
  function SignerTryNew(key: seq<byte>): (r: Result<Ed25519Signer, TextError>)
    ensures r.Ok? <==> |key| == 32
    ensures r.Ok? ==> r.value.key == key
    ensures r.Err? ==> r.error == KeyLength
  {
    if |key| == 32 then Ok(Ed25519Signer(key)) else Err(KeyLength)
  }

  /** `Ed25519Verifier::try_new`: exactly 32 bytes that form a valid public key. */
  function VerifierTryNew(p: SignaturePrimitives, key: seq<byte>): (r: Result<Ed25519Verifier, TextError>)
    ensures r.Ok? <==> |key| == 32 && p.isPublicKey(key)
    ensures r.Ok? ==> r.value.key == key
    ensures r == Err(KeyLength) <==> |key| != 32
  {
    if |key| != 32 then Err(KeyLength)
    else if !p.isPublicKey(key) then Err(InvalidPublicKey)
    else Ok(Ed25519Verifier(key))
  }

  // ---------------------------------------------------------------------------
  // Signing and verifying a whole input
  // ---------------------------------------------------------------------------

  function Blake3Sign(p: SignaturePrimitives, signer: Blake3, data: seq<byte>): seq<byte>
  {
    p.keyedHash(signer.key, data)
  }

  /**
   * Plain equality with the recomputed hash: a signature verifies exactly when
   * signing the same data with the same key gives it, so only 32-byte ones can.
   */
  function Blake3Verify(p: SignaturePrimitives, verifier: Blake3, data: seq<byte>, sig: seq<byte>): (r: bool)
    ensures r <==> sig == Blake3Sign(p, verifier, data)
    ensures p.Valid() && r ==> |sig| == 32
  {
    p.keyedHash(verifier.key, data) == sig
  }

  function Ed25519Sign(p: SignaturePrimitives, signer: Ed25519Signer, data: seq<byte>): seq<byte>
  {
    p.sign(signer.key, data)
  }

  /**
   * Only the first 64 bytes of `sig` are looked at (a shorter one panics):
   * whatever follows them, a verifier holding the public key of a seed
   * accepts what that seed signs.
   */
  function Ed25519Verify(p: SignaturePrimitives, verifier: Ed25519Verifier, data: seq<byte>,
                         sig: seq<byte>): (r: bool)
    requires |sig| >= 64
    ensures forall seed: Key32 ::
              (p.Valid() && verifier.key == p.publicKey(seed) && sig[..64] == p.sign(seed, data)) ==> r
  {
    p.verify(verifier.key, data, sig[..64])
  }

  /** A BLAKE3 signature verifies with the key that made it. */
  lemma Blake3SignThenVerify(p: SignaturePrimitives, key: Blake3, data: seq<byte>)
    requires p.Valid()
    ensures var sig := Blake3Sign(p, key, data);
            |sig| == 32 && Blake3Verify(p, key, data, sig)
  {
  }

  /** An Ed25519 signature verifies under the public key of the seed that made it. */
  lemma Ed25519SignThenVerify(p: SignaturePrimitives, seed: Key32, data: seq<byte>)
    requires p.Valid()
    ensures SignerTryNew(seed).Ok? && VerifierTryNew(p, p.publicKey(seed)).Ok?
    ensures var sig := Ed25519Sign(p, SignerTryNew(seed).value, data);
            |sig| == 64 && Ed25519Verify(p, VerifierTryNew(p, p.publicKey(seed)).value, data, sig)
  {
    var sig := p.sign(seed, data);
    assert |sig| == 64;
    assert sig[..64] == sig;
    assert p.verify(p.publicKey(seed), data, sig);
  }

  /** Bytes after the 64th do not change an Ed25519 verdict. */
  lemma Ed25519IgnoresTrailingBytes(p: SignaturePrimitives, verifier: Ed25519Verifier, data: seq<byte>,
                                    sig: seq<byte>, extra: seq<byte>)
    requires |sig| >= 64
    ensures Ed25519Verify(p, verifier, data, sig + extra) == Ed25519Verify(p, verifier, data, sig)
  {
    assert (sig + extra)[..64] == sig[..64];
  }

  // ---------------------------------------------------------------------------
  // The input stream: `sign` and `verify` read it whole into a buffer first
  // ---------------------------------------------------------------------------

  /** A byte source (`impl Read`): the bytes not yet read. */
  class Reader {
    var unread: seq<byte>

    constructor (data: seq<byte>)
      ensures unread == data
    {
      unread := data;
    }

    /** `read_to_end(&mut buf)`: appends everything left to `buf`. */
    method ReadToEnd(buf: seq<byte>) returns (filled: seq<byte>)
      modifies this
      ensures filled == buf + old(unread) && unread == []
    {
      filled := buf + unread;
      unread := [];
    }
  }

  /** `<Blake3 as TextSign>::sign`. */
  method SignBlake3(p: SignaturePrimitives, signer: Blake3, reader: Reader) returns (sig: seq<byte>)
    modifies reader
    ensures sig == Blake3Sign(p, signer, old(reader.unread)) && reader.unread == []
  {
    var buf := reader.ReadToEnd([]);
    assert buf == old(reader.unread);
    sig := p.keyedHash(signer.key, buf);
  }

  /** `<Ed25519Signer as TextSign>::sign`. */
  method SignEd25519(p: SignaturePrimitives, signer: Ed25519Signer, reader: Reader) returns (sig: seq<byte>)
    modifies reader
    ensures sig == Ed25519Sign(p, signer, old(reader.unread)) && reader.unread == []
  {
    var buf := reader.ReadToEnd([]);
    assert buf == old(reader.unread);
    sig := p.sign(signer.key, buf);
  }

  /** `<Blake3 as TextVerify>::verify`. */
  method VerifyBlake3(p: SignaturePrimitives, verifier: Blake3, reader: Reader, sig: seq<byte>)
    returns (ok: bool)
    modifies reader
    ensures ok == Blake3Verify(p, verifier, old(reader.unread), sig) && reader.unread == []
  {
    var buf := reader.ReadToEnd([]);
    assert buf == old(reader.unread);
    var hash := p.keyedHash(verifier.key, buf);
    ok := hash == sig;
  }

  /**
   * `<Ed25519Verifier as TextVerify>::verify`: the whole input is read first,
   * then `&sig[..64]` panics on a signature shorter than 64 bytes.
   */
  method VerifyEd25519(p: SignaturePrimitives, verifier: Ed25519Verifier, reader: Reader, sig: seq<byte>)
    returns (r: Result<bool, TextError>)
    modifies reader
    ensures reader.unread == []
    ensures r == if |sig| < 64 then Err(Panic) else Ok(Ed25519Verify(p, verifier, old(reader.unread), sig))
  {
    var buf := reader.ReadToEnd([]);
    assert buf == old(reader.unread);
    if |sig| < 64 {
      return Err(Panic);
    }
    var signature := sig[..64];
    r := Ok(p.verify(verifier.key, buf, signature));
  }

  // ---------------------------------------------------------------------------
  // The commands
  // ---------------------------------------------------------------------------

  /**
   * `process_text_sign` on the key file's bytes and the input's bytes: the
   * signature as URL-safe unpadded base64.
   */
  function TextSignResult(p: SignaturePrimitives, format: CliText.TextSignFormat, keyFile: seq<byte>,
                          data: seq<byte>): (r: Result<string, TextError>)
    ensures r.Ok? <==> (format == CliText.Blake3 && |keyFile| >= 32) || (format == CliText.Ed25519 && |keyFile| == 32)
    ensures r == Err(Panic) <==> format == CliText.Blake3 && |keyFile| < 32
    ensures r.Err? ==> r.error in {Panic, KeyLength}
    ensures r.Ok? ==> Decode(UrlSafe, r.value).Some?
    ensures p.Valid() && r.Ok? ==> |r.value| == (if format == CliText.Blake3 then 43 else 86)
    ensures r.Ok? && format == CliText.Blake3 ==>
              |keyFile| >= 32 && Decode(UrlSafe, r.value) == Some(Blake3Sign(p, Blake3TryNew(keyFile), data))
    ensures r.Ok? && format == CliText.Ed25519 ==>
              |keyFile| == 32 && Decode(UrlSafe, r.value) == Some(p.sign(keyFile, data))
  {
    match format
    case Blake3 =>
      if |keyFile| < 32 then Err(Panic)
      else
        var sig := Blake3Sign(p, Blake3TryNew(keyFile), data);
        DecodeEncode(UrlSafe, sig);
        Ok(Encode(UrlSafe, sig))
    case Ed25519 =>
      match SignerTryNew(keyFile)
      case Err(e) => Err(e)
      case Ok(signer) =>
        var sig := Ed25519Sign(p, signer, data);
        DecodeEncode(UrlSafe, sig);
        Ok(Encode(UrlSafe, sig))
  }

  /**
   * `process_text_verify`: the signature text is decoded before the key is
   * loaded, then the chosen verifier runs over the whole input.
   */
  function TextVerifyResult(p: SignaturePrimitives, format: CliText.TextSignFormat, keyFile: seq<byte>,
                            sigText: string, data: seq<byte>): (r: Result<bool, TextError>)
    ensures r == Err(SignatureBase64) <==> Decode(UrlSafe, sigText).None?
    ensures r == Err(KeyLength) <==>
              Decode(UrlSafe, sigText).Some? && format == CliText.Ed25519 && |keyFile| != 32
    ensures r == Err(Panic) <==>
              Decode(UrlSafe, sigText).Some? &&
              ((format == CliText.Blake3 && |keyFile| < 32) ||
               (format == CliText.Ed25519 && VerifierTryNew(p, keyFile).Ok? && |Decode(UrlSafe, sigText).value| < 64))
    ensures r == Err(InvalidPublicKey) <==>
              Decode(UrlSafe, sigText).Some? && format == CliText.Ed25519 && |keyFile| == 32 && !p.isPublicKey(keyFile)
    ensures r.Ok? <==>
              Decode(UrlSafe, sigText).Some? &&
              ((format == CliText.Blake3 && |keyFile| >= 32) ||
               (format == CliText.Ed25519 && VerifierTryNew(p, keyFile).Ok? && |Decode(UrlSafe, sigText).value| >= 64))
    ensures p.Valid() && r == Ok(true) && format == CliText.Blake3 ==> |sigText| == 43
    ensures r.Ok? && format == CliText.Blake3 ==>
              |keyFile| >= 32 && Decode(UrlSafe, sigText).Some?
              && (r.value <==> Decode(UrlSafe, sigText).value == Blake3Sign(p, Blake3TryNew(keyFile), data))
    ensures r.Ok? && format == CliText.Ed25519 ==>
              VerifierTryNew(p, keyFile).Ok? && Decode(UrlSafe, sigText).Some?
              && |Decode(UrlSafe, sigText).value| >= 64
              && r.value == p.verify(keyFile, data, Decode(UrlSafe, sigText).value[..64])
  {
    match Decode(UrlSafe, sigText)
    case None => Err(SignatureBase64)
    case Some(sig) =>
      match format
      case Blake3 =>
        if |keyFile| < 32 then Err(Panic)
        else Ok(Blake3Verify(p, Blake3TryNew(keyFile), data, sig))
      case Ed25519 =>
        match VerifierTryNew(p, keyFile)
        case Err(e) => Err(e)
        case Ok(verifier) =>
          if |sig| < 64 then Err(Panic) else Ok(Ed25519Verify(p, verifier, data, sig))
  }

  /** `process_text_sign`, reading the input through `reader`. */
  method ProcessTextSign(p: SignaturePrimitives, format: CliText.TextSignFormat, keyFile: seq<byte>,
                         reader: Reader) returns (r: Result<string, TextError>)
    modifies reader
    ensures r == TextSignResult(p, format, keyFile, old(reader.unread))
    ensures r.Ok? ==> reader.unread == []
    ensures r.Err? ==> reader.unread == old(reader.unread)
  {
    var signed: seq<byte>;
    match format {
      case Blake3 =>
        if |keyFile| < 32 {
          return Err(Panic);
        }
        var signer := Blake3TryNew(keyFile);
        signed := SignBlake3(p, signer, reader);
      case Ed25519 =>
        var loaded := SignerTryNew(keyFile);
        if loaded.Err? {
          return Err(loaded.error);
        }
        signed := SignEd25519(p, loaded.value, reader);
    }
    r := Ok(Encode(UrlSafe, signed));
  }

  /** `process_text_verify`, reading the input through `reader`. */
  method ProcessTextVerify(p: SignaturePrimitives, format: CliText.TextSignFormat, keyFile: seq<byte>,
                           sigText: string, reader: Reader) returns (r: Result<bool, TextError>)
    modifies reader
    ensures r == TextVerifyResult(p, format, keyFile, sigText, old(reader.unread))
    ensures r.Ok? || (r == Err(Panic) && format == CliText.Ed25519) ==> reader.unread == []
    ensures r.Err? && !(r == Err(Panic) && format == CliText.Ed25519) ==> reader.unread == old(reader.unread)
  {
    var sig := Decode(UrlSafe, sigText);
    if sig.None? {
      return Err(SignatureBase64);
    }
    var valid: bool;
    match format {
      case Blake3 =>
        if |keyFile| < 32 {
          return Err(Panic);
        }
        var verifier := Blake3TryNew(keyFile);
        valid := VerifyBlake3(p, verifier, reader, sig.value);
      case Ed25519 =>
        var loaded := VerifierTryNew(p, keyFile);
        if loaded.Err? {
          return Err(loaded.error);
        }
        var verdict := VerifyEd25519(p, loaded.value, reader, sig.value);
        if verdict.Err? {
          return Err(verdict.error);
        }
        valid := verdict.value;
    }
    r := Ok(valid);
  }

  /** Malformed signature text is refused before the key is looked at. */
  lemma VerifyDecodesSignatureFirst(p: SignaturePrimitives, format: CliText.TextSignFormat,
                                    keyFile: seq<byte>, sigText: string, data: seq<byte>)
    requires Decode(UrlSafe, sigText).None?
    ensures TextVerifyResult(p, format, keyFile, sigText, data) == Err(SignatureBase64)
  {
  }

  /**
   * The printed signature is 43 characters (BLAKE3) or 86 (Ed25519) and
   * decodes to the signature bytes.
   */
  lemma TextSignOutput(p: SignaturePrimitives, format: CliText.TextSignFormat, keyFile: seq<byte>,
                       data: seq<byte>)
    requires p.Valid()
    requires TextSignResult(p, format, keyFile, data).Ok?
    ensures var text := TextSignResult(p, format, keyFile, data).value;
            && |text| == (if format == CliText.Blake3 then 43 else 86)
            && Decode(UrlSafe, text).Some?
            && |Decode(UrlSafe, text).value| == (if format == CliText.Blake3 then 32 else 64)
  {
    var sig := if format == CliText.Blake3 then Blake3Sign(p, Blake3TryNew(keyFile), data)
               else Ed25519Sign(p, SignerTryNew(keyFile).value, data);
    DecodeEncode(UrlSafe, sig);
  }

  /** BLAKE3: what `sign` prints, `verify` accepts with the same key file and input. */
  lemma Blake3CommandsRoundTrip(p: SignaturePrimitives, keyFile: seq<byte>, data: seq<byte>)
    requires |keyFile| >= 32
    ensures TextSignResult(p, CliText.Blake3, keyFile, data).Ok?
    ensures TextVerifyResult(p, CliText.Blake3, keyFile, TextSignResult(p, CliText.Blake3, keyFile, data).value, data)
              == Ok(true)
  {
    DecodeEncode(UrlSafe, Blake3Sign(p, Blake3TryNew(keyFile), data));
  }

  /**
   * Ed25519: what `sign` prints with a 32-byte seed, `verify` accepts with
   * the seed's public key and the same input.
   */
  lemma Ed25519CommandsRoundTrip(p: SignaturePrimitives, seed: Key32, data: seq<byte>)
    requires p.Valid()
    ensures TextSignResult(p, CliText.Ed25519, seed, data).Ok?
    ensures TextVerifyResult(p, CliText.Ed25519, p.publicKey(seed),
                             TextSignResult(p, CliText.Ed25519, seed, data).value, data) == Ok(true)
  {
    var sig := Ed25519Sign(p, Ed25519Signer(seed), data);
    DecodeEncode(UrlSafe, sig);
    Ed25519SignThenVerify(p, seed, data);
  }
}
